=== FILE: README.md ===
# A verified model of the CRM's record logic

The CRM keeps Leads (prospective students), Enquiries (contacts and visits,
optionally linked to a lead) and Enrolments (course registrations) in three
database tables behind a Next.js front end. This project models, in Dafny,
the parts of the system that decide what gets stored and reported:

- the two CSV import endpoints. Enquiries are imported row by row, with lead
  resolution by email. Leads are validated, normalised and inserted in
  batches of 100;
- single lead creation (`POST /api/leads`) with its payload clean-up;
- the WhatsApp webhook: the verification handshake, and turning the first
  message of a payload into an enquiry;
- the EVES monthly report (enquiries, visits, enrolments, starters) and the
  visits page filters;
- the enquiry life cycle in the front end:
  - the add/edit form, with its status, lead and date inputs and its save request;
  - logging a visit on an enquiry or on a lead;
  - converting an enquiry into an enrolment;
- `check-env.js`, the `.env.local` reader and classifier.

Storage is a map from system-assigned ids to rows, with a fresh-id counter
per table (`Storage.Table`). Whether a database call succeeds is never
decided by the model: every operation that calls the database takes the
outcome as a parameter (a `bool`, an optional error, or a function from
row or batch number to a reply). The clock is a parameter too (`Dates.Instant`),
and the runtime is taken to be on UTC. JavaScript's `trim`, `||`,
`toLowerCase`, `includes`, `split`, `join`, `padStart`, `String(n)` and
`Number(s)` are modelled in `Text` and `Numerals`.

Modules follow the program: `Records` (the entities), `Storage`, `Dates`,
`Text`, `Numerals`, `Seqs` (filter/map/fold helpers), then one module per
endpoint, page or component: `EnquiryImport`, `LeadImport`, `LeadCreate`,
`Webhook`, `Eves`, `Visits`, `EnquiryForm`, `VisitModal`, `LeadVisitModal`,
`Conversion` and `EnvCheck`.

Where the code uses more than `types/index.ts` declares, the model follows
the code:
- the enquiry status `visit`;
- the fields `visit_date` and `visit_type`;
- the enrolment field `intake`.

Status, priority and intake are free strings, because the handlers copy
whatever a row or a form holds.

## Model

| member | source | states |
|---|---|---|
| Storage.UpdateEnquiry | components/VisitModal.tsx:22-37 | A `PUT /api/enquiries/<id>`, served by `app/api/enquiries/[id]/route.ts` lines 23-41, succeeds only when the call succeeds and the row exists. It then changes that row alone, applying the patch's keys and keeping every other column, and keeps ids fresh. |
| Storage.Insert | app/api/enrolments/route.ts:19-33 | An inserted row gets an id not in use, and no existing row changes. |
| Records.ApplyPatch | components/VisitModal.tsx:22-27 | A partial body, written by `update(body)` in `app/api/enquiries/[id]/route.ts`, changes only the keys it holds; all other columns keep their values. |
| EnquiryImport.FindByEmail | app/api/enquiries/import/route.ts:40-47 | `maybeSingle` finds a lead exactly when one lead has the email. The found id is that one lead. |
| EnquiryImport.DerivedLeadName | app/api/enquiries/import/route.ts:52 | The name is never empty. It is the given name, else the email's text before its first `@`, else `Imported Lead` when that text is empty. |
| EnquiryImport.ResolveLead | app/api/enquiries/import/route.ts:36-87 | With an email: a matching lead is linked, else a lead (`ImportedLead`: status `new`, source `import`, no phone, company or notes) is created with that email and the derived name, and a failed creation fails the row. With a name only: a lead is always created, and a failed creation leaves the enquiry unlinked. With neither: no link. Existing leads never change. |
| EnquiryImport.ResolveAgainFindsSameLead | app/api/enquiries/import/route.ts:39-66 | Resolving the same email a second time finds the lead linked the first time and creates nothing, when at most one lead had the email before. |
| EnquiryImport.SharedEmailCreatesAnother | app/api/enquiries/import/route.ts:40-62 | When two or more leads share an email, the lookup finds none and one more lead with that email is created. |
| EnquiryImport.ImportedEnquiry | app/api/enquiries/import/route.ts:90-97 | The subject defaults to `Imported Enquiry`, the status to `open` and the priority to `medium`. The message, assignee and resolved lead id are copied. |
| EnquiryImport.Response.Status | app/api/enquiries/import/route.ts:9-121 | A rejected body answers 400. Every completed run answers 200, whatever its row errors. |
| EnquiryImport.ImportRow | app/api/enquiries/import/route.ts:35-114 | A row fails exactly when its lead cannot be created or its enquiry insert fails, and the error carries the row's number. A successful row adds exactly one enquiry under the next id. The leads table is left as lead resolution leaves it, whether or not the enquiry insert succeeds. |
| EnquiryImport.Step | app/api/enquiries/import/route.ts:31-114 | Each row adds one to `imported` or appends one error numbered with that row, never both. Existing rows never change. |
| EnquiryImport.ImportPrefixFacts | app/api/enquiries/import/route.ts:17-116 | After n rows, `imported` plus the number of errors is n. Errors name rows 1..n in strictly increasing order. One enquiry is added per imported row, and no existing lead, enquiry or enrolment changes. |
| EnquiryImport.Post | app/api/enquiries/import/route.ts:9-121 | A non-array or empty list is rejected (400) and nothing is stored. Otherwise the response reports success with `total` equal to the row count and `imported + errors.length == total`, even when nothing was imported. The 50-row slicing does not change the outcome. |
| LeadImport.StatusOrNew | app/api/leads/import/route.ts:71 | The status is the trimmed value when it is not blank, else `new`, and never empty. |
| LeadImport.TrimmedName | app/api/leads/import/route.ts:61-66 | A kept row's name is its trimmed name, which is non-empty and already trimmed. |
| LeadImport.Format | app/api/leads/import/route.ts:65-73 | Every optional field is trimmed, with blank as null. The name is trimmed, the status defaults to `new`, and there is no id. |
| LeadImport.Validate | app/api/leads/import/route.ts:58-75 | There are never more valid leads than uploaded rows. |
| LeadImport.ValidateCounts | app/api/leads/import/route.ts:58-75 | A file whose rows all have a name keeps every row; a file with no named row keeps none. |
| LeadImport.ValidateIsFormatOfKept | app/api/leads/import/route.ts:58-75 | The valid leads are exactly the named rows, formatted, in upload order. Nameless rows appear nowhere. |
| LeadImport.ValidateFacts | app/api/leads/import/route.ts:58-75 | There are as many valid leads as rows with a non-blank name, and each valid lead's name is non-empty and trimmed. |
| LeadImport.BatchCount | app/api/leads/import/route.ts:92 | The loop runs ⌈n/100⌉ times: zero times exactly for no rows, and the last batch starts below n. |
| LeadImport.BatchAt | app/api/leads/import/route.ts:93 | Each batch holds between 1 and 100 rows. |
| LeadImport.InsertAll | app/api/leads/import/route.ts:94-97 | A successful batch stores its rows, in order, under consecutive fresh ids. No other row changes. |
| LeadImport.BatchStep | app/api/leads/import/route.ts:94-123 | A failed batch, or one that returns no rows, adds exactly one error carrying the batch's number, and stores and returns nothing. A successful batch adds no error, appends exactly its rows, in order, to the returned rows, and stores them after the existing rows. Every row of the batch is counted as imported or lost. |
| LeadImport.RunPrefix | app/api/leads/import/route.ts:92-124 | After k batches, imported plus lost rows equal the rows covered so far, and there is no error exactly when no row was lost. The table is the old one with exactly the returned rows appended, in order, under consecutive fresh ids, so a run that returned nothing leaves it as it was. Without an error, the returned rows are the leading valid leads. Its errors name distinct batches among the first k, by number, in increasing order. |
| LeadImport.InsertAllConcat | app/api/leads/import/route.ts:92-115 | Storing two lists of rows one after the other stores their concatenation. |
| LeadImport.CleanStep | app/api/leads/import/route.ts:92-123 | A batch that adds no error extends a run whose returned rows are the leading valid leads by exactly its own rows. |
| LeadImport.InsertBatches | app/api/leads/import/route.ts:92-124 | The `i += 100` loop, numbering batch `i` as `floor(i/100)+1`, computes the state after all ⌈n/100⌉ batches. |
| LeadImport.ImportAccounting | app/api/leads/import/route.ts:92-124 | Every valid row is imported or lost with its batch. There are no errors exactly when every valid row was imported. |
| LeadImport.Post | app/api/leads/import/route.ts:5-147 | Each answer holds exactly when its condition does, checked in order: configuration missing (500), connection test failed (500), non-array or empty list (400), no named row (400). After inserting, a run that stored no row is a failure (500) that reports its batch errors and changes nothing. A run that stored at least one row is a success (200), partial or not: `imported` is the number of rows stored and `total` the number of valid rows, and the errors are empty exactly when the two are equal. The table gains exactly the returned rows, in order; with no errors these are all the valid leads in upload order. |
| LeadImport.Response.Status | app/api/leads/import/route.ts:5-147 | A completed import answers 200, a rejected body 400, and every other answer 500. |
| LeadImport.Response.Message | app/api/leads/import/route.ts:143-145 | The message starts `Imported ` exactly when some batch failed, and `Successfully imported ` exactly when none did. The number of rows stored follows those words. |
| LeadCreate.NullableField | app/api/leads/route.ts:64-67 | `x?.trim() \|\| null` is null exactly for an absent or blank value, and otherwise the trimmed text. |
| LeadCreate.FieldOf | app/api/leads/route.ts:62-70 | The name is trimmed (undefined when absent), and nullable fields are null or trimmed non-empty text. The status is as given (untrimmed), or `new` when absent or empty. |
| LeadCreate.LeadData | app/api/leads/route.ts:62-70 | `leadData` has exactly the seven keys, each holding its field's value. |
| LeadCreate.CleanRef | app/api/leads/route.ts:72-81 | Under a nullable key, `''` becomes null. Under any other key, an undefined or `''` value is removed. Everything else stays. |
| LeadCreate.CleanKey | app/api/leads/route.ts:74-80 | One step of the clean-up changes only the entry of its own key. |
| LeadCreate.Cleanup | app/api/leads/route.ts:73-81 | The in-place loop over `Object.keys`, deleting and writing as it goes, computes `CleanRef` for distinct keys. |
| LeadCreate.Payload | app/api/leads/route.ts:62-81 | The name, when present, is the given name trimmed. The status is always present: the given status, or `new` when it is missing or empty. |
| LeadCreate.PayloadShape | app/api/leads/route.ts:62-81 | The payload carries the name exactly when it is given and not blank, and then trimmed. Every nullable field is present as null or trimmed text. The status is present. No value is undefined or `''`. |
| LeadCreate.ToLead | app/api/leads/route.ts:85-89 | The stored row has no id yet. It takes the payload's name, or `''` when the key was removed, and its status, or `new` when removed. A null field is stored as none. |
| LeadCreate.StoredLead | app/api/leads/route.ts:62-89 | The stored name is the given name trimmed, empty when missing or blank. The stored status is the given one, or `new`. |
| LeadCreate.StoredNullable | app/api/leads/route.ts:64-89 | Each of email, phone, company, source and notes is stored trimmed, with a missing or blank value stored as none. |
| LeadCreate.Post | app/api/leads/route.ts:5-107 | Missing configuration and a failed connection test answer 500 and store nothing. Only a successful insert answers 201, storing the cleaned payload under a fresh id. A failed insert, and only that, answers 500 with the database error and its message, or `Failed to create lead` when the message is empty. |
| LeadCreate.Response.Status | app/api/leads/route.ts:5-107 | A created lead answers 201; every other answer is 500. |
| Webhook.VerifyToken | app/api/whatsapp/webhook/route.ts:9 | The token is the configured one when it is set and non-empty, else the placeholder. It is never empty. |
| Webhook.Verify | app/api/whatsapp/webhook/route.ts:20-25 | The challenge is echoed with 200 exactly when the mode is `subscribe`, the token matches and the challenge is non-empty. Otherwise the answer is 403. |
| Webhook.VerifyResponse.Status | app/api/whatsapp/webhook/route.ts:20-25 | An echoed challenge answers 200; a refusal answers 403. |
| Webhook.UnconfiguredTokenIsPlaceholder | app/api/whatsapp/webhook/route.ts:9-25 | With no token configured, the placeholder token passes and an empty token never does. |
| Webhook.JsTruthy | app/api/whatsapp/webhook/route.ts:38-41 | Only a present value other than `null` can be truthy, and every array and object is truthy, even an empty one. |
| Webhook.Get | app/api/whatsapp/webhook/route.ts:38-41 | A property read finds a value exactly when the value is an object with that own field. |
| Webhook.First | app/api/whatsapp/webhook/route.ts:38-41 | `Array.isArray(v) && v[0]` is falsy for anything but an array. A truthy result is the first item of a non-empty array. |
| Webhook.AndGet | app/api/whatsapp/webhook/route.ts:40 | A falsy value passes through unchanged. A truthy result is the named field of a truthy object. |
| Webhook.AndFirst | app/api/whatsapp/webhook/route.ts:39-41 | A falsy value passes through unchanged. A truthy result is the first item of a non-empty array held in the named field of a truthy object. |
| Webhook.FirstMessage | app/api/whatsapp/webhook/route.ts:38-41 | A message is found only when `entry` is a non-empty array whose first element has a non-empty `changes` array. |
| Webhook.FirstMessageOfPayload | app/api/whatsapp/webhook/route.ts:38-41 | Only `entry[0].changes[0].value.messages[0]` is read; later entries, changes and messages are ignored. |
| Webhook.NoMessagesIgnored | app/api/whatsapp/webhook/route.ts:38-46 | A payload with an empty message list, or no entries, has no first message. |
| Webhook.Subject | app/api/whatsapp/webhook/route.ts:48-53 | The subject is `WhatsApp from <from>` for a truthy sender, else `WhatsApp Enquiry`. |
| Webhook.Display | app/api/whatsapp/webhook/route.ts:53 | A string shows as itself, an empty array as `''`, and a one-string array as that string. |
| Webhook.TextBody | app/api/whatsapp/webhook/route.ts:49-51 | A truthy `text.body` is the body. Without a truthy `text` and with a type other than `text` there is none. Any falsy body that is present comes from a message of type `text`. |
| Webhook.MessageContent | app/api/whatsapp/webhook/route.ts:49-55 | The message is the text body when truthy, else the fallback line stamped with the current ISO time. A non-empty string body is stored verbatim. |
| Webhook.FallbackStampsDay | app/api/whatsapp/webhook/route.ts:54-55 | The fallback message starts with its fixed prefix, and the rest reads back as the day it was received. |
| Webhook.TextMessageBody | app/api/whatsapp/webhook/route.ts:49-55 | For a text message the stored message is its text body. |
| Webhook.MessageEnquiry | app/api/whatsapp/webhook/route.ts:57-65 | The enquiry is open, medium priority and unlinked, and carries the synthesised subject and message. |
| Webhook.Post | app/api/whatsapp/webhook/route.ts:30-77 | A non-JSON or `null` body answers 400. A payload without a first message answers `ignored` and stores nothing. Otherwise the answer is `received`, whether or not the insert succeeded, and only a successful insert adds the enquiry. |
| Webhook.PostResponse.Status | app/api/whatsapp/webhook/route.ts:30-77 | Only an unreadable body answers 400. An ignored payload answers 200, like a received one. |
| Eves.CurrentMonthValue | app/eves/page.tsx:17-22 | The month value has two `-`-separated parts: the year, and the month as exactly two digits. Each reads back as the current year and month. |
| Eves.IsInMonthOfMonthValue | app/eves/page.tsx:24-30 | For a picker month value, `isInMonth` holds exactly for a present date that parses to that year and month. A missing, empty or unparseable date is in no month. |
| Eves.IsInMonth | app/eves/page.tsx:24-30 | Only a present date that parses is in any month. |
| Eves.MonthMatchesValue | app/eves/page.tsx:28-29 | The comparison inside `isInMonth` (`MonthMatches`) holds for a day against `YYYY-MM` exactly when it has that year and month. |
| Eves.IntakeTarget | app/eves/page.tsx:88-93 | A target, when there is one, is one of the four intakes. |
| Eves.IntakeOfPart | app/eves/page.tsx:88-92 | A month part names an intake exactly when it is `02`, `05`, `08` or `11`, and that intake is one of the four. |
| Eves.IntakeOfMonth | app/eves/page.tsx:88-93 | Months 2, 5, 8 and 11 have an intake and no other month does; each intake is one of the four. |
| Eves.IntakeTargetOfMonthValue | app/eves/page.tsx:88-93 | The string test on the month part names February, May, August or November exactly for months 2, 5, 8 and 11, in any year, and nothing otherwise. |
| Eves.Stats | app/eves/page.tsx:73-106 | No count exceeds its list, and starters are 0 when the month has no intake. |
| Eves.StatsAddEnquiry | app/eves/page.tsx:74-81 | Counted through the filters `CreatedIn` and `VisitedIn`: one more enquiry adds one to `enquiries` exactly when it was created in the month, and one to `visits` exactly when its visit date is in the month, whatever its status. The other counts do not move. |
| Eves.StatsAddEnrolment | app/eves/page.tsx:83-97 | Counted through the filters `EnrolledIn` and `OfIntake`: one more enrolment adds one to `enrolments` exactly when it was created in the month. It adds one to `starters` exactly when the month has an intake and the enrolment belongs to it, whatever its date. |
| Eves.StatsEmpty | app/eves/page.tsx:73-106 | Empty lists give all-zero counts; with the two lemmas above this fixes every count. |
| Eves.StartersIgnoreYear | app/eves/page.tsx:88-97 | Starters do not depend on the selected year. |
| Visits.VisitsOf | app/visits/page.tsx:29-32 | The list is an order-preserving subsequence of the data. It holds every enquiry in status `visit` exactly as many times as the data does, and nothing else. |
| Visits.MatchesQuery | app/visits/page.tsx:57-62 | The empty query matches every visit. |
| Visits.NormalQueryEmpty | app/visits/page.tsx:55-56 | The query as normalised by `NormalQuery` (`toLowerCase().trim()`) is empty exactly when the typed query is blank. |
| Visits.NormalQueryIdempotent | app/visits/page.tsx:56 | Normalising a normalised query changes nothing. |
| Visits.ByType | app/visits/page.tsx:50-52 | `all` keeps every visit. Any other type gives an order-preserving subsequence holding every visit of that type exactly as many times as the input does, and no other visit. |
| Visits.BySearch | app/visits/page.tsx:55-62 | A blank query keeps every visit. Otherwise the result is an order-preserving subsequence holding every visit whose lower-cased lead name, lead phone or subject contains the trimmed, lower-cased query, exactly as many times as the input does, and no other visit. |
| Visits.FilteredVisits | app/visits/page.tsx:46-66 | The shown list is an order-preserving subsequence holding every visit that passes both filters exactly as many times as the input does, and no other visit. |
| Visits.NoFilterShowsAll | app/visits/page.tsx:46-66 | A blank query with type `all` shows every visit. |
| Visits.FilteredVisitsIdempotent | app/visits/page.tsx:50-63 | Filtering the shown list again with the same query and type changes nothing. |
| Seqs.FilterSelects | app/visits/page.tsx:51 | `filter` keeps, in order, every passing element exactly as many times as the input holds it, and no other element. |
| Seqs.SelectsThen | app/visits/page.tsx:46-63 | Filtering a filtered list selects the elements that pass both tests. |
| Seqs.SelectsMembers | app/visits/page.tsx:46-63 | A selection holds only passing elements, and every passing element of its source. |
| EnquiryForm.NewForm | components/EnquiryForm.tsx:14-21 | A new form has no lead, an empty subject, message and assignee, status `open` and priority `medium`. |
| EnquiryForm.InitialForm | components/EnquiryForm.tsx:23-28 | Editing starts from the given enquiry; adding starts from the new form. |
| EnquiryForm.ChangeStatus | components/EnquiryForm.tsx:109-116 | The status is replaced. The visit date becomes today exactly when the new status is `visit` and no date is set. No other field changes and nothing is cleared. |
| EnquiryForm.VisitStatusHasDate | components/EnquiryForm.tsx:112-114 | After choosing `visit`, the date input is shown and already filled. |
| EnquiryForm.ChangeStatusIdempotent | components/EnquiryForm.tsx:109-116 | Choosing the same status again, at any later time, changes nothing. |
| EnquiryForm.VisitFieldsFollowStatus | components/EnquiryForm.tsx:109-133 | After any status change the visit date and type inputs (`ShowsVisitFields`) are shown, and the date required, exactly when the chosen status is `visit`. |
| EnquiryForm.SelectLead | components/EnquiryForm.tsx:75 | Picking an option changes only the lead id, and the empty option clears it. |
| EnquiryForm.LeadValue | components/EnquiryForm.tsx:74 | The select shows the empty option exactly when there is no lead id or the id is 0. Otherwise its value reads back as the id. |
| EnquiryForm.SelectLeadRoundTrip | components/EnquiryForm.tsx:74-82 | Picking the option of a lead with a non-zero id stores that id, and the select then shows that option. |
| EnquiryForm.SelectShownLead | components/EnquiryForm.tsx:74-75 | Picking the option the select shows leaves the form unchanged, unless the stored id is 0. |
| EnquiryForm.DateInputValue | components/EnquiryForm.tsx:134 | An absent date shows empty. A present date shows only when it parses; otherwise rendering throws. |
| EnquiryForm.DateInputRoundTrip | components/EnquiryForm.tsx:134-135 | A date the input wrote shows unchanged, and a stored timestamp shows as its day. |
| EnquiryForm.SaveRequest | components/EnquiryForm.tsx:43-50 | The whole form is the body. PUT is used exactly when the edited enquiry has a non-zero id, POST otherwise. |
| EnquiryForm.SaveRequestRoute | components/EnquiryForm.tsx:43-44 | A PUT reaches the update route with the enquiry's own id, and a POST never reaches an update route. |
| VisitModal.InitialForm | components/VisitModal.tsx:13-15 | The dialog opens on today's date, a walk-in, and the enquiry's message (or `''`) as notes. |
| VisitModal.VisitPatch | components/VisitModal.tsx:22-27 | Applied to any row, the patch leaves a visit with exactly the form's date, kind and notes; applying it again changes nothing. |
| VisitModal.LogVisit | components/VisitModal.tsx:22-37 | On success exactly the status (`visit`), visit date, visit type and message of that enquiry are replaced. A failed call, or an enquiry without a stored id, changes nothing. |
| VisitModal.LogVisitIdempotent | components/VisitModal.tsx:22-33 | Submitting the same visit twice leaves the store as one submission does. |
| VisitModal.VisitTodayInCurrentMonth | components/VisitModal.tsx:13-27 | A visit logged on the default date is a visit of the current month in the report. |
| LeadVisitModal.InitialForm | components/LeadVisitModal.tsx:13-16 | The dialog opens on today's date, a walk-in, the subject `Visit from <name>` and an empty message. |
| LeadVisitModal.AddVisit | components/LeadVisitModal.tsx:24-42 | On success one enquiry, in status `visit` and linked to the lead, is added under a fresh id. A failure changes nothing. |
| LeadVisitModal.VisitEnquiry | components/LeadVisitModal.tsx:24-32 | The new enquiry belongs to the lead and is a visit of the chosen date and kind, with medium priority and the form's subject and message. It has no id, assignee or creation time yet. |
| LeadVisitModal.AddedVisitListed | components/LeadVisitModal.tsx:24-32 | On the visits page the new enquiry appears after the visits already listed. |
| LeadVisitModal.AddedVisitCounted | components/LeadVisitModal.tsx:24-32 | In the report, the new enquiry adds one visit to its date's month and to no other. |
| Conversion.InitialForm | components/ConversionModal.tsx:13-15 | The dialog opens on the February intake, the subject as course name and an empty amount. |
| Conversion.Amount | components/ConversionModal.tsx:27 | An empty amount is sent as 0. A negative amount is sent only when the typed text holds a minus sign. |
| Conversion.AmountIsNumber | components/ConversionModal.tsx:27 | The empty-string guard changes nothing: the amount is `Number(amount)`. A blank amount is 0, and any other is a number exactly when its trimmed text is a decimal integer numeral with at most one leading sign. |
| Conversion.AmountOfNumeral | components/ConversionModal.tsx:27 | A typed numeral is recorded as its value, and a typed negative numeral as its negative value. |
| Conversion.Notes | components/ConversionModal.tsx:30 | The notes start with `Converted from Enquiry #` and end with the enquiry's subject. |
| Conversion.IdText | components/ConversionModal.tsx:30 | An id prints as a numeral that reads back as the id. A missing id prints `undefined`, which reads as no number. |
| Conversion.NotesReadBack | components/ConversionModal.tsx:30 | The notes name the enquiry: they parse back to its id and subject, whatever the subject holds. |
| Conversion.NotesWithoutId | components/ConversionModal.tsx:30 | For an enquiry without an id, the notes say `#undefined` and name no enquiry. |
| Conversion.NotesInjective | components/ConversionModal.tsx:30 | Equal notes come from enquiries with equal ids and subjects. |
| Conversion.EnrolmentData | components/ConversionModal.tsx:23-31 | A pending, paid enrolment for the enquiry's lead, with the form's course and intake. Its amount is `Number` of the typed amount, and its notes are the conversion notes. |
| Conversion.Convert | components/ConversionModal.tsx:18-62 | A failed enrolment creation changes nothing. Otherwise the enrolment is stored under a fresh id, and the enquiry is closed exactly when the update succeeds and the row exists; only its status changes. A failed close keeps the enrolment and leaves the enquiry as it was. |
| Conversion.ConversionStarts | components/ConversionModal.tsx:23-31 | The new enrolment counts as a starter of every month of its chosen intake, in any year, and of no other month. |
| EnvCheck.KnownSetting | check-env.js:34-40 | A key selects a setting exactly when it equals that setting's name. |
| EnvCheck.ParseLine | check-env.js:28-32 | A line is skipped exactly when, trimmed, it is empty or starts with `#`. A key never contains `=`, and a value has no white space at either end. |
| EnvCheck.ParseLineSpec | check-env.js:28-32 | A blank or `#` line is skipped. Otherwise the key is the trimmed line before its first `=` (the whole line without one), and the value is the trimmed rest. |
| EnvCheck.ValueKeepsEquals | check-env.js:31-32 | A value containing `=` survives intact. |
| EnvCheck.RecordSetting | check-env.js:34-40 | Recording a line (`Record`) changes a setting exactly when its key is that setting's name. |
| EnvCheck.ReadParsed | check-env.js:27-41 | When every value read is trimmed, so is every setting. |
| EnvCheck.UnnamedStaysEmpty | check-env.js:23-41 | Reading lines in order (`ReadParsed`), a setting that no line names stays `''`. |
| EnvCheck.LastOneWins | check-env.js:27-41 | When a key repeats, the last line naming it decides the value. |
| EnvCheck.ReadEnv | check-env.js:20-41 | No setting read from the file has white space at either end. |
| EnvCheck.CheckUrl | check-env.js:46-58 | The URL is unset when empty, a placeholder when it contains `your_supabase`, missing its prefix when it lacks `https://`, and plausible otherwise; exactly one holds. |
| EnvCheck.CheckKey | check-env.js:61-68 | A key is unset when empty, a placeholder when it contains `your_` or equals the full placeholder, and plausible otherwise. |
| EnvCheck.KeyPlaceholderTest | check-env.js:63 | For both keys the equality test is redundant: a key is a placeholder exactly when it contains `your_`. |
| EnvCheck.Check | check-env.js:11-78 | A missing file is reported as such. Otherwise each setting's verdict is computed on the last value read. |
| EnvCheck.UnnamedIsUnset | check-env.js:23-47 | A file with no line naming a setting reports that setting unset. |
| EnvCheck.Preview | check-env.js:57 | A plausible value prints as its first 30 characters followed by `...`. |
| Dates.ParseIsoDate | components/EnquiryForm.tsx:134 | A formatted `YYYY-MM-DD` parses back to the same day. |
| Dates.ParseIsoString | components/EnquiryForm.tsx:134 | A formatted ISO timestamp parses back to its day. |
| Dates.Today | components/VisitModal.tsx:13 | `toISOString().split('T')[0]` is the `YYYY-MM-DD` form of the current day. |
| Dates.IsoDate | components/VisitModal.tsx:13 | A day is written as `YYYY-MM-DD`: four, two and two digits separated by `-`. |
| Dates.ParseTimestamp | components/EnquiryForm.tsx:134 | Only a `YYYY-MM-DD` date, alone or followed by `T`, parses, and it parses to a valid day. |
| Dates.IsoString | app/api/whatsapp/webhook/route.ts:55 | The ISO form is the `YYYY-MM-DD` date, then `T`, then the clock. |
| Numerals.DecimalRoundTrip | components/EnquiryForm.tsx:75 | An id's numeral, as the lead select writes it, reads back as the id. |
| Numerals.Decimal | app/eves/page.tsx:19-22 | `String(n)` of a non-negative integer is a non-empty run of digits with no leading zero. |
| Numerals.PadStart | app/eves/page.tsx:21 | `padStart(width, c)` gives a result as long as the larger of the width and the text's length. The text ends the result, and every character before it is `c`. |
| Numerals.ZeroPadded | app/eves/page.tsx:20 | `padStart(2, '0')` gives only digits, at least two of them, and exactly two for a month. |
| Eves.SplitMonthValue | app/eves/page.tsx:19-28 | Splitting a month value written by `MonthValue` at `-` gives the year's numeral and the padded month, nothing more. |
| Eves.IntakeOfPaddedMonth | app/eves/page.tsx:88-93 | The intake read from the padded month part is the intake of that month. |
| EnquiryImport.PrefixSound | app/api/enquiries/import/route.ts:31-114 | After any number of rows, the counts, the error numbering and the untouched existing rows all still hold. |
| Text.TrimOrNullIdempotent | app/api/leads/import/route.ts:67-70 | Normalising an already normalised field changes nothing. |
| Text.Split | app/eves/page.tsx:28 | `split` gives at least one piece, and no piece holds the separator. |
| Numerals.ZeroPaddedRoundTrip | app/eves/page.tsx:20 | `String(m).padStart(2, '0')` reads back as `m`. |
| Numerals.JsNumberOfPadded | app/eves/page.tsx:29 | `Number` of a zero-padded numeral is its value. |
| Numerals.JsNumber | components/ConversionModal.tsx:27 | `Number(s)` is 0 for blank text and a number exactly for a trimmed decimal integer numeral with at most one leading sign. A negative result needs a `-` in the text. |
| Numerals.ParseInt | components/ConversionModal.tsx:27 | A value exactly for digits with at most one leading sign. A negative value needs a leading `-`. |
| Numerals.ParseIntRoundTrip | components/ConversionModal.tsx:27 | A numeral reads back as its value, with a leading `-` as the negative value and a leading `+` as the value. |
| Numerals.JsNumberOfSigned | components/ConversionModal.tsx:27 | `Number` of a signed numeral is its signed value. |
| Text.Trim | app/api/leads/route.ts:63 | `trim` cuts blank text at both ends. It is empty exactly for blank text, and otherwise starts and ends with a non-space. |
| Text.TrimIdempotent | app/api/leads/import/route.ts:66 | Trimming twice is trimming once. |
| Text.TrimOrNull | app/api/leads/import/route.ts:67-70 | `x?.trim() \|\| null` is null exactly for an absent or blank value. |
| Text.OrElse | app/api/whatsapp/webhook/route.ts:9 | `o || d` is non-empty exactly when `o` is truthy or `d` is non-empty, and it is either `d` or the value of `o`. |
| Text.ToLowerIdempotent | app/visits/page.tsx:56-60 | Lower-casing twice is lower-casing once. |
| Text.ToLower | app/visits/page.tsx:56-60 | Lower-casing keeps the length and maps each character on its own. |
| Text.ContainsIff | app/visits/page.tsx:61 | `includes` holds exactly when the pattern occurs at some index. |
| Text.Contains | app/visits/page.tsx:61 | A pattern that is found is never longer than the text. |
| Text.JoinSplit | check-env.js:31-32 | Joining the pieces of a split restores the string. |
| Text.SplitJoin | check-env.js:31-32 | Splitting a join of separator-free pieces gives the pieces back. |

## Left out

- HTTP plumbing, JSON parsing of request bodies, logging, alerts, React state and rendering, and the outer `catch` that answers 500 on an unexpected exception, are not modelled. Each handler's decisions are modelled from its parsed input.
- Database calls are not modelled as code. Their outcomes are parameters. No database constraint or column default (`NOT NULL` on a lead's name, `created_at`, `updated_at`) is modelled; an insert stores the body as sent.
- Concurrency between requests is not modelled: every handler runs alone on the store.
- app/api/enquiries/route.ts is not part of this model. The enquiry that `LeadVisitModal.AddVisit` sends is taken to be stored as sent.
- The GET handlers, the list pages, the cards, and the CSV and XLSX libraries are not modelled; they only read or render.
- The health route and setup-env.js are not modelled; they probe the environment and write files.
- EnquiryForm.SaveRequest: the effect of the save on the store is not modelled, only the request it sends. The body is the whole form, including a joined `lead` object when editing.
- LeadImport.BatchStep: the rows an insert returns are taken to be the batch itself. A reply with no rows (`NoRows`) is taken to have stored nothing.
- Numerals.JsNumber: `Number(s)` is modelled only for decimal integers with an optional `+` or `-`, with white space trimmed. Fractions, exponents, hexadecimal, binary and octal prefixes and `Infinity` are treated as `NaN`, because the model has no floating point. `-0` is taken as 0.
- Conversion.Amount: no sign is promised for the amount sent. The input sets no minimum, and a typed negative numeral is sent as its negative value.
- EnquiryForm.SelectLead: an option value that reads as a negative number, which no lead's option carries, is held as no lead, because lead ids are non-negative here.
- Text.ToLower: `toLowerCase` is modelled for the ASCII letters only. Full Unicode case mapping is left out.
- Strings are sequences of Unicode code points. JavaScript's string lengths and indices count UTF-16 code units, so they differ for text with characters outside the Basic Multilingual Plane, such as emoji.
- EnvCheck.Preview: the preview keeps the first 30 code points. `substring(0, 30)` keeps the first 30 UTF-16 code units, so a value with characters outside the Basic Multilingual Plane previews shorter in JavaScript, and may end in half a surrogate pair.
- EnquiryImport.ImportRow: a row's error keeps only why it failed and, for a failed lead creation, the email. The error text is abstracted. For the lead it is `Failed to create lead for <email>: <database message>`. For the enquiry insert it is the database's message, or `Unknown error` when that is empty.
- Dates.ParseTimestamp: `new Date(s)` is modelled only for `YYYY-MM-DD` and `YYYY-MM-DDT…`. The time part is not checked, day-of-month limits are 1..31 whatever the month, and the runtime is on UTC. The day is the date as written, read from the first ten characters. That is the UTC day only for a timestamp with `Z`, `+00:00` or no offset, which is the form the database returns. An offset such as `-05:00`, or a time of `24:00`, that moves the instant into another UTC day is ignored: `new Date("2024-01-31T23:30:00-05:00")` falls on 1 February in UTC, but the model reads 31 January. `Eves.IsInMonth` and `EnquiryForm.DateInputValue` inherit this.
- LeadCreate.ToLead: a payload without a name is stored with an empty name and one without a status as `new`. The database's `NOT NULL` rejection of a missing name is not modelled.
- Webhook.Display: JSON numbers are integers, so `${n}` is not modelled for fractions or exponents.
- Webhook.MessageContent: a text body that is not a string (a number, an object) is stored here as its `${}` text. The handler passes the raw JSON value to the insert, and the database's own conversion of it is not modelled.
- Webhook.Post: the `null` body is the only parsed body whose property read throws; a body that is not JSON is the other 400 case.
- Eves.Stats: the XLSX export and the month picker's list of months are not modelled.

=== FILE: conversion.dfy ===
/** Converting an enquiry into an enrolment: the conversion dialog creates an
    enrolment from the enquiry and the form, then marks the enquiry closed.
    The two requests are not atomic: when the second one fails the enrolment
    stays and the enquiry keeps its status. */
module Conversion {
  import opened Wrappers
  import opened Text
  import opened Numerals
  import opened Records
  import opened Storage
  import Eves

  /** The dialog's fields: the intake, the course name and the amount as typed. */
  datatype Form = Form(intake: string, courseName: string, amount: string)

  /** The dialog opens on the February intake, the enquiry's subject as the
      course name (`subject || ''`, which for a string is the subject itself)
      and an empty amount. */
  function InitialForm(e: Enquiry): (f: Form)
    ensures f.intake == IntakeFebruary && f.amount == ""
    ensures f.courseName == e.subject
  {
    Form(IntakeFebruary, OrElse(Some(e.subject), ""), "")
  }

  /** `amount ? Number(amount) : 0`; `None` is `NaN`, which is sent as `null`.
      The input sets no minimum, so a typed negative numeral is sent as it is. */
  function Amount(amount: string): (r: Option<int>)
    ensures amount == "" ==> r == Some(0)
    ensures r.Some? && r.value < 0 ==> '-' in amount
  {
    if amount == "" then Some(0) else JsNumber(amount)
  }

  /** The empty-string guard changes nothing: the amount is `Number(amount)`,
      so a blank amount is 0, an integer numeral its value, anything else `NaN`. */
  lemma AmountIsNumber(amount: string)
    ensures Amount(amount) == JsNumber(amount)
    ensures IsBlank(amount) ==> Amount(amount) == Some(0)
    ensures !IsBlank(amount) ==> (Amount(amount).Some? <==> IsSignedNumeral(Trim(amount)))
  {
  }

  /** A typed numeral is recorded as its value, with its sign. */
  lemma AmountOfNumeral(n: nat)
    ensures Amount(Decimal(n)) == Some(n)
    ensures Amount("-" + Decimal(n)) == Some(0 - n)
  {
    JsNumberOfDecimal(n);
    JsNumberOfSigned(n);
  }

  const NotesPrefix := "Converted from Enquiry #"

  /** `${enquiry.id}`: the id's numeral, or `undefined` for an enquiry without one. */
  function IdText(id: Option<nat>): (t: string)
    ensures ParseNat(t).Some? <==> id.Some?
    ensures id.Some? ==> ParseNat(t) == Some(id.value)
    ensures id.None? ==> t == "undefined"
  {
    if id.Some? then
      DecimalRoundTrip(id.value);
      Decimal(id.value)
    else
      assert !IsDigit("undefined"[0]);
      "undefined"
  }

  /** `Converted from Enquiry #${enquiry.id}: ${enquiry.subject}`. */
  function Notes(e: Enquiry): (n: string)
    ensures StartsWith(n, NotesPrefix)
    ensures |n| >= |e.subject| && n[|n| - |e.subject|..] == e.subject
  {
    var n := NotesPrefix + IdText(e.id) + ": " + e.subject;
    assert n[..|NotesPrefix|] == NotesPrefix;
    n
  }

  /** Reading an enrolment's notes back: the enquiry id and subject they were
      written from, when they have the conversion form. */
  function NotesSource(notes: string): (r: Option<(nat, string)>)
    ensures r.Some? ==> StartsWith(notes, NotesPrefix)
  {
    if !StartsWith(notes, NotesPrefix) then None
    else
      var rest := notes[|NotesPrefix|..];
      match IndexOf(rest, ':')
      case None => None
      case Some(k) =>
        if k + 1 < |rest| && rest[k + 1] == ' ' && ParseNat(rest[..k]).Some? then
          Some((ParseNat(rest[..k]).value, rest[k + 2..]))
        else None
  }

  /** The notes of a converted enquiry name it: they read back as its id and
      its subject, whatever the subject contains. */
  lemma NotesReadBack(e: Enquiry)
    requires e.id.Some?
    ensures NotesSource(Notes(e)) == Some((e.id.value, e.subject))
  {
    var d := Decimal(e.id.value);
    var notes := Notes(e);
    assert notes[..|NotesPrefix|] == NotesPrefix;
    var rest := notes[|NotesPrefix|..];
    assert rest == d + [':'] + (" " + e.subject);
    DigitsExclude(d, ':');
    IndexOfAfter(d, ':', " " + e.subject);
    assert rest[..|d|] == d;
    assert rest[|d| + 2..] == e.subject;
    DecimalRoundTrip(e.id.value);
  }

  /** Notes written for an enquiry without an id say `#undefined` and name no enquiry. */
  lemma NotesWithoutId(e: Enquiry)
    requires e.id.None?
    ensures NotesSource(Notes(e)).None?
  {
    var notes := Notes(e);
    assert notes[..|NotesPrefix|] == NotesPrefix;
    var rest := notes[|NotesPrefix|..];
    assert rest == "undefined" + [':'] + (" " + e.subject);
    IndexOfAfter("undefined", ':', " " + e.subject);
    assert rest[..9] == "undefined";
    assert !IsDigit(rest[0]);
  }

  /** Two enquiries with ids whose conversions wrote the same notes have the
      same id and the same subject. */
  lemma NotesInjective(e1: Enquiry, e2: Enquiry)
    requires e1.id.Some? && e2.id.Some? && Notes(e1) == Notes(e2)
    ensures e1.id == e2.id && e1.subject == e2.subject
  {
    NotesReadBack(e1);
    NotesReadBack(e2);
  }

  /** The body of `POST /api/enrolments`: a pending, paid enrolment for the
      enquiry's lead, with the form's course, intake and amount. */
  function EnrolmentData(e: Enquiry, f: Form): (d: Enrolment)
    ensures d.id.None? && d.leadId == e.leadId
    ensures d.status == EnrolmentPending && d.paymentStatus == PaymentPaid
    ensures d.courseName == f.courseName && d.intake == Some(f.intake)
    ensures d.amount == Amount(f.amount)
    ensures d.notes == Some(Notes(e)) && StartsWith(d.notes.value, NotesPrefix)
  {
    Enrolment(
      None,
      e.leadId,
      f.courseName,
      None,
      Amount(f.amount),
      EnrolmentPending,
      PaymentPaid,
      Some(f.intake),
      Some(Notes(e)),
      None)
  }

  /** How a conversion ended: the enrolment was not created (an alert, nothing
      changed), or it was created with the given id and the enquiry was or was
      not closed. A close answered with a non-2xx status is only a warning and
      `onConvert` still runs; a close request that rejects raises an alert and
      skips `onConvert`. The store is the same either way: the enrolment stays
      and the enquiry keeps its status. */
  datatype Outcome = CreateFailed | Converted(enrolmentId: nat, enquiryClosed: bool)

  /** The submit handler, with whether each of its two requests succeeds as a
      parameter. */
  function Convert(s: Store, e: Enquiry, f: Form, createOk: bool, updateOk: bool): (r: (Outcome, Store))
    ensures r.0.CreateFailed? <==> !createOk
    ensures !createOk ==> r.1 == s
    ensures createOk ==> r.0.enrolmentId == s.enrolments.next
    ensures createOk ==> r.1.enrolments.rows == s.enrolments.rows[s.enrolments.next := EnrolmentData(e, f)]
    ensures r.1.leads == s.leads
    ensures r.0.Converted? ==>
      (r.0.enquiryClosed <==> updateOk && e.id.Some? && e.id.value in s.enquiries.rows)
    ensures r.0.Converted? && r.0.enquiryClosed ==>
      r.1.enquiries.rows == s.enquiries.rows[e.id.value := s.enquiries.rows[e.id.value].(status := EnquiryClosed)]
    ensures r.0.Converted? && !r.0.enquiryClosed ==> r.1.enquiries == s.enquiries
    ensures s.Valid() ==> r.1.Valid()
  {
    if !createOk then (CreateFailed, s)
    else
      var (enrolments, id) := s.enrolments.Insert(EnrolmentData(e, f));
      var created := s.(enrolments := enrolments);
      match UpdateEnquiry(created, e.id, EnquiryPatch(Some(EnquiryClosed), None, None, None), updateOk)
      case Some(closed) =>
        assert closed.enquiries.rows == s.enquiries.rows[e.id.value := s.enquiries.rows[e.id.value].(status := EnquiryClosed)];
        (Converted(id, true), closed)
      case None => (Converted(id, false), created)
  }

  /** A converted enquiry's enrolment counts as a starter of every month whose
      intake is the one chosen in the dialog, and of no other month, in any year. */
  lemma ConversionStarts(
    enquiries: seq<Enquiry>, enrolments: seq<Enrolment>, e: Enquiry, f: Form, year: nat, month: nat)
    ensures var m := Eves.MonthValue(year, month);
      Eves.Stats(enquiries, enrolments + [EnrolmentData(e, f)], m).starters
        == Eves.Stats(enquiries, enrolments, m).starters
           + Eves.Indicator(Eves.IntakeOfMonth(month) == Some(f.intake))
  {
    Eves.StatsAddEnrolment(enquiries, enrolments, EnrolmentData(e, f), Eves.MonthValue(year, month));
    Eves.IntakeTargetOfMonthValue(year, month);
  }
}

=== FILE: dates.dfy ===
/** Calendar days and the ISO-8601 text the CRM stores them as. The clock is
    a parameter (`Instant`), and the runtime is taken to be on UTC, so the
    local and the UTC calendar day coincide. */
module Dates {
  import opened Wrappers
  import opened Text
  import opened Numerals

  /** A calendar day: year, 1-based month, day of the month. */
  datatype Day = Day(year: nat, month: nat, day: nat)

  predicate ValidDay(d: Day) {
    d.year < 10000 && 1 <= d.month <= 12 && 1 <= d.day <= 31
  }

  /** A moment: its calendar day and the part of its ISO form after the `T`
      (`HH:MM:SS.sssZ`). */
  datatype Instant = Instant(day: Day, clock: string)

  /** Four, two and two digits joined by dashes. */
  function DateText(y: string, m: string, dd: string): (s: string)
    requires |y| == 4 && |m| == 2 && |dd| == 2
    ensures |s| == 10 && s[4] == '-' && s[7] == '-'
    ensures s[..4] == y && s[5..7] == m && s[8..10] == dd
  {
    y + "-" + m + "-" + dd
  }

  /** The padded numerals of a valid day's parts have widths 4, 2 and 2. */
  lemma PartWidths(d: Day)
    requires ValidDay(d)
    ensures |ZeroPadded(d.year, 4)| == 4 && |ZeroPadded(d.month, 2)| == 2 && |ZeroPadded(d.day, 2)| == 2
  {
    Pow10Small();
  }

  /** `YYYY-MM-DD`. */
  function IsoDate(d: Day): (s: string)
    requires ValidDay(d)
    ensures |s| == 10 && s[4] == '-' && s[7] == '-'
    ensures AllDigits(s[..4]) && AllDigits(s[5..7]) && AllDigits(s[8..10])
  {
    PartWidths(d);
    DateText(ZeroPadded(d.year, 4), ZeroPadded(d.month, 2), ZeroPadded(d.day, 2))
  }

  /** `Date.prototype.toISOString()`. */
  function IsoString(t: Instant): (s: string)
    requires ValidDay(t.day)
    ensures |s| == 11 + |t.clock| && s[10] == 'T'
    ensures s[..10] == IsoDate(t.day) && s[11..] == t.clock
  {
    IsoDate(t.day) + "T" + t.clock
  }

  /** `new Date().toISOString().split('T')[0]`: the form's "today". */
  function Today(now: Instant): (s: string)
    requires ValidDay(now.day)
    ensures s == IsoDate(now.day)
  {
    var date := IsoDate(now.day);
    assert 'T' !in date by {
      forall i | 0 <= i < |date| ensures date[i] != 'T' {
        if i < 4 { assert date[i] == date[..4][i]; }
        else if 4 < i < 7 { assert date[i] == date[5..7][i - 5]; }
        else if 7 < i { assert date[i] == date[8..10][i - 8]; }
      }
    }
    SplitAfterFirst(date, 'T', now.clock);
    Split(IsoString(now), 'T')[0]
  }

  /** `new Date(s)` for the two forms the CRM stores: a date `YYYY-MM-DD`,
      or a timestamp `YYYY-MM-DDT...`. The day is `None` (an invalid date)
      for any other text and for a month outside 1..12 or a day outside 1..31. */
  function ParseTimestamp(s: string): (r: Option<Day>)
    ensures r.Some? ==> ValidDay(r.value)
    ensures r.Some? ==> |s| >= 10 && (|s| == 10 || s[10] == 'T')
  {
    if |s| >= 10 && s[4] == '-' && s[7] == '-' && (|s| == 10 || s[10] == 'T')
       && AllDigits(s[..4]) && AllDigits(s[5..7]) && AllDigits(s[8..10])
    then
      assert DigitsValue(s[..4]) < 10000 by {
        DigitsBound(s[..4]);
        Pow10Small();
      }
      var d := Day(DigitsValue(s[..4]), DigitsValue(s[5..7]), DigitsValue(s[8..10]));
      if 1 <= d.month <= 12 && 1 <= d.day <= 31 then Some(d) else None
    else None
  }

  /** Reading back a formatted date gives the same day. */
  lemma ParseIsoDate(d: Day)
    requires ValidDay(d)
    ensures ParseTimestamp(IsoDate(d)) == Some(d)
  {
    var s := IsoDate(d);
    PartWidths(d);
    assert s[..4] == ZeroPadded(d.year, 4);
    assert s[5..7] == ZeroPadded(d.month, 2);
    assert s[8..10] == ZeroPadded(d.day, 2);
    ZeroPaddedRoundTrip(d.year, 4);
    ZeroPaddedRoundTrip(d.month, 2);
    ZeroPaddedRoundTrip(d.day, 2);
  }

  /** Reading back a formatted instant gives its day. */
  lemma ParseIsoString(t: Instant)
    requires ValidDay(t.day)
    ensures ParseTimestamp(IsoString(t)) == Some(t.day)
  {
    var date := IsoDate(t.day);
    var s := IsoString(t);
    ParseIsoDate(t.day);
    assert s[..10] == date;
    assert s[..4] == date[..4] && s[5..7] == date[5..7] && s[8..10] == date[8..10];
  }
}

=== FILE: enquiry_form.dfy ===
/** The add/edit enquiry form: its initial contents, the status select that
    fills in a visit date, the lead select and date input as the browser
    shows them, and the request the form submits. The form's state is a
    partial enquiry, held here as an `Enquiry` whose optional fields are
    `None` when the key is absent. */
module EnquiryForm {
  import opened Wrappers
  import opened Text
  import opened Numerals
  import opened Dates
  import opened Records

  /** The contents of a new enquiry's form: no lead, empty subject, message
      and assignee, status `open`, priority `medium`, no visit fields. */
  function NewForm(): (f: Enquiry)
    ensures f.id.None? && f.leadId.None? && f.lead.None? && f.createdAt.None?
    ensures f.subject == "" && f.message == Some("") && f.assignedTo == Some("")
    ensures f.status == EnquiryOpen && f.priority == PriorityMedium
    ensures f.visitDate.None? && f.visitType.None?
  {
    Enquiry(None, None, "", Some(""), EnquiryOpen, PriorityMedium, Some(""), None, None, None, None)
  }

  /** Editing starts from the enquiry as given; adding starts from `NewForm`. */
  function InitialForm(enquiry: Option<Enquiry>): (f: Enquiry)
    ensures enquiry.Some? ==> f == enquiry.value
    ensures enquiry.None? ==> f == NewForm()
  {
    if enquiry.Some? then enquiry.value else NewForm()
  }

  /** The visit date and visit type inputs are shown, and the date required,
      exactly while the status is `visit`. */
  predicate ShowsVisitFields(f: Enquiry) {
    f.status == EnquiryVisit
  }

  /** Choosing a status: the status is replaced, and when the new status is
      `visit` and the form has no visit date, the date becomes today. Nothing
      else changes; in particular leaving `visit` keeps the date. */
  function ChangeStatus(f: Enquiry, status: string, now: Instant): (r: Enquiry)
    requires ValidDay(now.day)
    ensures r.status == status
    ensures r.visitDate == if status == EnquiryVisit && !Truthy(f.visitDate) then Some(IsoDate(now.day)) else f.visitDate
    ensures r.(status := f.status, visitDate := f.visitDate) == f
  {
    if status == EnquiryVisit && !Truthy(f.visitDate) then
      f.(status := status, visitDate := Some(Today(now)))
    else f.(status := status)
  }

  /** After choosing `visit` the required date input is shown and already filled. */
  lemma VisitStatusHasDate(f: Enquiry, now: Instant)
    requires ValidDay(now.day)
    ensures ShowsVisitFields(ChangeStatus(f, EnquiryVisit, now))
    ensures Truthy(ChangeStatus(f, EnquiryVisit, now).visitDate)
  {
  }

  /** After any status change the visit inputs are shown exactly when the
      chosen status is `visit`; choosing another status hides them. */
  lemma VisitFieldsFollowStatus(f: Enquiry, status: string, now: Instant)
    requires ValidDay(now.day)
    ensures ShowsVisitFields(ChangeStatus(f, status, now)) <==> status == EnquiryVisit
  {
  }

  /** Choosing the same status again, at any later time, changes nothing. */
  lemma ChangeStatusIdempotent(f: Enquiry, status: string, now: Instant, later: Instant)
    requires ValidDay(now.day) && ValidDay(later.day)
    ensures ChangeStatus(ChangeStatus(f, status, now), status, later) == ChangeStatus(f, status, now)
  {
  }

  /** The lead select's value: `lead_id || ''`. It shows the empty option
      exactly when there is no lead id or the id is 0, and otherwise a numeral
      that reads back as the id. */
  function LeadValue(f: Enquiry): (v: string)
    ensures v == "" <==> f.leadId.None? || f.leadId.value == 0
    ensures v != "" ==> ParseNat(v) == f.leadId
  {
    if f.leadId.Some? && f.leadId.value != 0 then
      DecimalRoundTrip(f.leadId.value);
      Decimal(f.leadId.value)
    else ""
  }

  /** Picking an option: `value ? Number(value) : undefined`. A value that is not
      a number gives `NaN`, which is sent as `null`; both are held as `None`, and
      so is a negative number, which no lead's option carries. */
  function SelectLead(f: Enquiry, value: string): (r: Enquiry)
    ensures r == f.(leadId := r.leadId)
    ensures value == "" ==> r.leadId.None?
  {
    if value == "" then f.(leadId := None)
    else
      match JsNumber(value)
      case Some(n) => f.(leadId := if n >= 0 then Some(n as nat) else None)
      case None => f.(leadId := None)
  }

  /** Picking a lead's option stores its id, which the select then shows. */
  lemma SelectLeadRoundTrip(f: Enquiry, id: nat)
    requires id != 0
    ensures SelectLead(f, Decimal(id)).leadId == Some(id)
    ensures LeadValue(SelectLead(f, Decimal(id))) == Decimal(id)
  {
    JsNumberOfDecimal(id);
  }

  /** Picking the option the select already shows leaves the form as it is,
      unless the stored lead id is 0, which shows as no lead. */
  lemma SelectShownLead(f: Enquiry)
    requires f.leadId != Some(0)
    ensures SelectLead(f, LeadValue(f)) == f
  {
    if f.leadId.Some? {
      JsNumberOfDecimal(f.leadId.value);
    }
  }

  /** The date input's value: `new Date(visit_date).toISOString().split('T')[0]`
      for a present date, `''` otherwise. `None` is the `RangeError` that
      `toISOString` throws for a date that does not parse. */
  function DateInputValue(visitDate: Option<string>): (r: Option<string>)
    ensures !Truthy(visitDate) ==> r == Some("")
    ensures Truthy(visitDate) ==> (r.Some? <==> ParseTimestamp(visitDate.value).Some?)
  {
    if !Truthy(visitDate) then Some("")
    else
      match ParseTimestamp(visitDate.value)
      case None => None
      case Some(d) => Some(IsoDate(d))
  }

  /** A date the input wrote is shown unchanged, and a stored timestamp is
      shown as its day. */
  lemma DateInputRoundTrip(d: Day, t: Instant)
    requires ValidDay(d) && ValidDay(t.day)
    ensures DateInputValue(Some(IsoDate(d))) == Some(IsoDate(d))
    ensures DateInputValue(Some(IsoString(t))) == Some(IsoDate(t.day))
  {
    ParseIsoDate(d);
    ParseIsoString(t);
  }

  datatype Verb = Post | Put

  /** What the form sends: the HTTP method, the URL and the whole form as the body. */
  datatype Request = Request(verb: Verb, url: string, body: Enquiry)

  const CollectionUrl := "/api/enquiries"

  /** `enquiry?.id`: an edited enquiry with a (non-zero) id is updated in place
      with `PUT /api/enquiries/<id>`; anything else is created with `POST`. */
  function SaveRequest(enquiry: Option<Enquiry>, f: Enquiry): (r: Request)
    ensures r.body == f
    ensures r.verb == Put <==> enquiry.Some? && enquiry.value.id.Some? && enquiry.value.id.value != 0
  {
    if enquiry.Some? && enquiry.value.id.Some? && enquiry.value.id.value != 0 then
      Request(Put, CollectionUrl + "/" + Decimal(enquiry.value.id.value), f)
    else Request(Post, CollectionUrl, f)
  }

  const UpdatePrefix := CollectionUrl + "/"

  /** The `[id]` segment the router takes from a URL `/api/enquiries/<id>`:
      the non-empty rest after the prefix, which holds no further `/`.
      `None` for a URL of any other shape. */
  function RouteId(url: string): (r: Option<string>)
    ensures r.Some? ==> r.value != "" && '/' !in r.value && url == UpdatePrefix + r.value
  {
    if StartsWith(url, UpdatePrefix) && |url| > |UpdatePrefix| && '/' !in url[|UpdatePrefix|..] then
      assert url == UpdatePrefix + url[|UpdatePrefix|..];
      Some(url[|UpdatePrefix|..])
    else None
  }

  /** A `PUT` reaches the update route with the enquiry's own id, and a `POST`
      reaches the collection route, not an update. */
  lemma SaveRequestRoute(enquiry: Option<Enquiry>, f: Enquiry)
    ensures var r := SaveRequest(enquiry, f);
      r.verb == Put ==> RouteId(r.url).Some? && ParseNat(RouteId(r.url).value) == enquiry.value.id
    ensures SaveRequest(enquiry, f).verb == Post ==> RouteId(SaveRequest(enquiry, f).url).None?
  {
    var r := SaveRequest(enquiry, f);
    if r.verb == Put {
      var id := enquiry.value.id.value;
      var d := Decimal(id);
      DigitsExclude(d, '/');
      assert r.url == UpdatePrefix + d;
      assert r.url[..|UpdatePrefix|] == UpdatePrefix && r.url[|UpdatePrefix|..] == d;
      DecimalRoundTrip(id);
    }
  }
}

=== FILE: enquiry_import.dfy ===
/** `POST /api/enquiries/import`: each uploaded row is linked to a lead
    (found by exact email, or created) and becomes one enquiry; rows are
    processed in order and a failing row is recorded with its 1-based
    position without stopping the others. */
module EnquiryImport {
  import opened Wrappers
  import opened Text
  import opened Records
  import opened Storage
  import opened Seqs

  /** Rows are walked in slices of this many; slicing does not change the outcome. */
  const BatchSize := 50
  const ImportSource := "enquiry_import"
  const FallbackLeadName := "Imported Lead"
  const DefaultSubject := "Imported Enquiry"

  /** One uploaded row; every field may be missing. */
  datatype Row = Row(
    leadEmail: Option<string>,
    leadName: Option<string>,
    subject: Option<string>,
    message: Option<string>,
    status: Option<string>,
    priority: Option<string>,
    assignedTo: Option<string>)

  /** How the database answers the calls made for one row: whether the
      email lookup query, the lead insert and the enquiry insert succeed. */
  datatype Replies = Replies(lookupOk: bool, leadInsertOk: bool, enquiryInsertOk: bool)

  datatype Failure = LeadCreateFailed(email: string) | EnquiryInsertFailed

  /** An entry of the response's `errors`: the row's 1-based position and why it failed. */
  datatype RowError = RowError(row: nat, failure: Failure)

  /** The ids of the leads whose email is exactly `email`. */
  function EmailMatches(leads: Table<Lead>, email: string): set<nat> {
    set k | k in leads.rows && leads.rows[k].email == Some(email)
  }

  lemma SingletonSet(s: set<nat>, x: nat)
    requires |s| == 1 && x in s
    ensures s == {x}
  {
    assert |s - {x}| == 0;
  }

  /** `.eq('email', email).maybeSingle()`: the lead when exactly one has this
      email; when none or several do, the query yields no row. */
  function FindByEmail(leads: Table<Lead>, email: string): (r: Option<nat>)
    ensures r.Some? <==> |EmailMatches(leads, email)| == 1
    ensures r.Some? ==> EmailMatches(leads, email) == {r.value}
  {
    var ids := EmailMatches(leads, email);
    if |ids| == 1 then
      assert forall a, b :: a in ids && b in ids ==> a == b by {
        forall a, b | a in ids && b in ids ensures a == b {
          SingletonSet(ids, a);
        }
      }
      var k :| k in ids;
      SingletonSet(ids, k);
      Some(k)
    else None
  }

  /** `lead_name || lead_email.split('@')[0] || 'Imported Lead'`: the given
      name, else the email's text before its first `@`, else the fallback
      when that text is empty. */
  function DerivedLeadName(leadName: Option<string>, email: string): (n: string)
    ensures n != ""
    ensures Truthy(leadName) ==> n == leadName.value
    ensures !Truthy(leadName) && IndexOf(email, '@').None? && email != "" ==> n == email
    ensures !Truthy(leadName) && IndexOf(email, '@').Some? && IndexOf(email, '@').value > 0 ==>
      n == email[..IndexOf(email, '@').value]
    ensures !Truthy(leadName) && (email == "" || IndexOf(email, '@') == Some(0)) ==> n == FallbackLeadName
  {
    AfterFirst(email, '@');
    if Truthy(leadName) then leadName.value
    else OrElse(Some(Split(email, '@')[0]), FallbackLeadName)
  }

  /** The lead an import creates: no phone, company or notes, status `new`. */
  function ImportedLead(name: string, email: Option<string>): Lead {
    Lead(None, name, email, None, None, Some(ImportSource), LeadNew, None, None)
  }

  /** The outcome of lead resolution: the lead id to link (possibly none), or a failure. */
  datatype Resolution = Linked(leadId: Option<nat>) | Unresolved(failure: Failure)

  /** Lead resolution for one row. With an email: link the one lead that has
      it, or else create a lead with that email and a derived name (a failed
      insert fails the row). With only a name: always create a lead with that
      name and no email (a failed insert leaves the enquiry unlinked). With
      neither: link nothing. */
  function ResolveLead(leads: Table<Lead>, row: Row, replies: Replies): (res: (Table<Lead>, Resolution))
    ensures leads.Valid() ==> res.0.Valid() && Extends(leads, res.0)
    ensures Truthy(row.leadEmail) && replies.lookupOk && FindByEmail(leads, row.leadEmail.value).Some? ==>
      res == (leads, Linked(FindByEmail(leads, row.leadEmail.value)))
    ensures Truthy(row.leadEmail) && (!replies.lookupOk || FindByEmail(leads, row.leadEmail.value).None?) ==>
      if replies.leadInsertOk then
        && res.0.rows == leads.rows[leads.next := ImportedLead(DerivedLeadName(row.leadName, row.leadEmail.value), row.leadEmail)]
        && res.1 == Linked(Some(leads.next))
      else
        res == (leads, Unresolved(LeadCreateFailed(row.leadEmail.value)))
    ensures !Truthy(row.leadEmail) && Truthy(row.leadName) ==>
      if replies.leadInsertOk then
        && res.0.rows == leads.rows[leads.next := ImportedLead(row.leadName.value, None)]
        && res.1 == Linked(Some(leads.next))
      else
        res == (leads, Linked(None))
    ensures !Truthy(row.leadEmail) && !Truthy(row.leadName) ==> res == (leads, Linked(None))
  {
    if Truthy(row.leadEmail) then
      var email := row.leadEmail.value;
      var found := if replies.lookupOk then FindByEmail(leads, email) else None;
      if found.Some? then (leads, Linked(found))
      else if replies.leadInsertOk then
        var (t, id) := leads.Insert(ImportedLead(DerivedLeadName(row.leadName, email), row.leadEmail));
        (t, Linked(Some(id)))
      else (leads, Unresolved(LeadCreateFailed(email)))
    else if Truthy(row.leadName) then
      if replies.leadInsertOk then
        var (t, id) := leads.Insert(ImportedLead(row.leadName.value, None));
        (t, Linked(Some(id)))
      else (leads, Linked(None))
    else (leads, Linked(None))
  }

  /** Once an email resolves to a lead, resolving it again finds that same
      lead and creates nothing, provided at most one lead had the email to
      begin with. */
  lemma ResolveAgainFindsSameLead(leads: Table<Lead>, row: Row, replies: Replies)
    requires leads.Valid()
    requires Truthy(row.leadEmail) && replies.lookupOk
    requires |EmailMatches(leads, row.leadEmail.value)| <= 1
    requires ResolveLead(leads, row, replies).1.Linked?
    ensures var (t, r) := ResolveLead(leads, row, replies);
      ResolveLead(t, row, replies) == (t, r)
  {
    var email := row.leadEmail.value;
    var (t, r) := ResolveLead(leads, row, replies);
    if FindByEmail(leads, email).None? {
      assert EmailMatches(leads, email) == {};
      assert t.rows == leads.rows[leads.next := ImportedLead(DerivedLeadName(row.leadName, email), row.leadEmail)];
      assert EmailMatches(t, email) == {leads.next};
    }
  }

  /** When several leads already share an email, the lookup finds none of
      them and a row with that email creates yet another lead. */
  lemma SharedEmailCreatesAnother(leads: Table<Lead>, row: Row, replies: Replies)
    requires leads.Valid()
    requires Truthy(row.leadEmail) && replies.lookupOk && replies.leadInsertOk
    requires |EmailMatches(leads, row.leadEmail.value)| >= 2
    ensures var (t, r) := ResolveLead(leads, row, replies);
      && r == Linked(Some(leads.next))
      && EmailMatches(t, row.leadEmail.value) == EmailMatches(leads, row.leadEmail.value) + {leads.next}
  {
    var email := row.leadEmail.value;
    var (t, r) := ResolveLead(leads, row, replies);
    assert t.rows == leads.rows[leads.next := ImportedLead(DerivedLeadName(row.leadName, email), row.leadEmail)];
  }

  /** The enquiry an import row becomes: subject `Imported Enquiry`, status
      `open` and priority `medium` unless the row gives them; message and
      assignee as given. */
  function ImportedEnquiry(row: Row, leadId: Option<nat>): (e: Enquiry)
    ensures e.leadId == leadId
    ensures e.subject != "" && e.status != "" && e.priority != ""
    ensures e.subject == (if Truthy(row.subject) then row.subject.value else DefaultSubject)
    ensures e.status == (if Truthy(row.status) then row.status.value else EnquiryOpen)
    ensures e.priority == (if Truthy(row.priority) then row.priority.value else PriorityMedium)
    ensures e.message == row.message && e.assignedTo == row.assignedTo
    ensures e.visitDate.None? && e.visitType.None?
  {
    Enquiry(None, leadId, OrElse(row.subject, DefaultSubject), row.message,
            OrElse(row.status, EnquiryOpen), OrElse(row.priority, PriorityMedium),
            row.assignedTo, None, None, None, None)
  }

  /** One row: resolve its lead, then insert its enquiry. A row fails when its
      email's lead cannot be created or its enquiry cannot be inserted; a lead
      created for a row whose enquiry then fails stays in the table. */
  function ImportRow(store: Store, row: Row, replies: Replies, rowNumber: nat): (res: (Store, Option<RowError>))
    ensures res.0.enrolments == store.enrolments
    ensures res.0.leads == ResolveLead(store.leads, row, replies).0
    ensures store.Valid() ==> res.0.Valid()
    ensures store.Valid() ==> Extends(store.leads, res.0.leads) && Extends(store.enquiries, res.0.enquiries)
    ensures res.1.Some? ==> res.1.value.row == rowNumber
    ensures res.1.Some? <==>
      ResolveLead(store.leads, row, replies).1.Unresolved? || !replies.enquiryInsertOk
    ensures res.1.Some? ==> res.0.enquiries == store.enquiries
    ensures res.1.None? ==>
      && res.0.enquiries.next == store.enquiries.next + 1
      && res.0.enquiries.rows == store.enquiries.rows[store.enquiries.next :=
           ImportedEnquiry(row, ResolveLead(store.leads, row, replies).1.leadId)]
  {
    var (leads, resolution) := ResolveLead(store.leads, row, replies);
    match resolution
    case Unresolved(failure) => (store.(leads := leads), Some(RowError(rowNumber, failure)))
    case Linked(leadId) =>
      if replies.enquiryInsertOk then
        var (enquiries, _) := store.enquiries.Insert(ImportedEnquiry(row, leadId));
        (store.(leads := leads, enquiries := enquiries), None)
      else
        (store.(leads := leads), Some(RowError(rowNumber, EnquiryInsertFailed)))
  }

  /** The running totals of the import loop. */
  datatype Progress = Progress(store: Store, imported: nat, errors: seq<RowError>)

  /** Row `i` (0-based), answered by `replies(i)` and reported as row `i + 1`. */
  function StepAt(replies: nat -> Replies): (Progress, Row, nat) -> Progress {
    (p: Progress, row: Row, i: nat) => Step(p, row, replies(i), i + 1)
  }

  /** The state after the first `n` rows. */
  function ImportPrefix(store: Store, rows: seq<Row>, replies: nat -> Replies, n: nat): Progress
    requires n <= |rows|
  {
    FoldPrefix(Progress(store, 0, []), rows, StepAt(replies), n)
  }

  /** After `n` rows every row either counts as imported, adding one
      enquiry, or adds one error; errors name rows 1..n in increasing order;
      enrolments are untouched and no existing lead or enquiry changes. */
  lemma {:induction false} ImportPrefixFacts(store: Store, rows: seq<Row>, replies: nat -> Replies, n: nat)
    requires n <= |rows|
    ensures var p := ImportPrefix(store, rows, replies, n);
      && p.imported + |p.errors| == n
      && (forall i :: 0 <= i < |p.errors| ==> 1 <= p.errors[i].row <= n)
      && (forall i, j :: 0 <= i < j < |p.errors| ==> p.errors[i].row < p.errors[j].row)
      && p.store.enrolments == store.enrolments
      && (store.Valid() ==> p.store.Valid())
      && (store.Valid() ==> Extends(store.leads, p.store.leads))
      && (store.Valid() ==> Extends(store.enquiries, p.store.enquiries))
      && p.store.enquiries.next == store.enquiries.next + p.imported
  {
    PrefixSound(store, rows, replies, n);
  }

  /** The facts of `ImportPrefixFacts` about the totals `p` after `n` rows. */
  ghost predicate Sound(store: Store, p: Progress, n: nat) {
    && p.imported + |p.errors| == n
    && (forall i :: 0 <= i < |p.errors| ==> 1 <= p.errors[i].row <= n)
    && (forall i, j :: 0 <= i < j < |p.errors| ==> p.errors[i].row < p.errors[j].row)
    && p.store.enrolments == store.enrolments
    && (store.Valid() ==> p.store.Valid())
    && (store.Valid() ==> Extends(store.leads, p.store.leads))
    && (store.Valid() ==> Extends(store.enquiries, p.store.enquiries))
    && p.store.enquiries.next == store.enquiries.next + p.imported
  }

  lemma StepSound(store: Store, p: Progress, row: Row, r: Replies, n: nat)
    requires Sound(store, p, n)
    ensures Sound(store, Step(p, row, r, n + 1), n + 1)
  {
    var q := Step(p, row, r, n + 1);
    assert forall i :: 0 <= i < |p.errors| ==> q.errors[i] == p.errors[i];
    if store.Valid() {
      ExtendsTransitive(store.leads, p.store.leads, q.store.leads);
      ExtendsTransitive(store.enquiries, p.store.enquiries, q.store.enquiries);
    }
  }

  lemma PrefixSound(store: Store, rows: seq<Row>, replies: nat -> Replies, n: nat)
    requires n <= |rows|
    ensures Sound(store, ImportPrefix(store, rows, replies, n), n)
  {
    var inv := (p: Progress, i: nat) => Sound(store, p, i);
    forall p: Progress, i: nat | i < |rows| && inv(p, i)
      ensures inv(StepAt(replies)(p, rows[i], i), i + 1)
    {
      StepSound(store, p, rows[i], replies(i), i);
    }
    FoldInvariant(Progress(store, 0, []), rows, StepAt(replies), inv, n);
  }

  /** Folding one more row, reported as `rowNumber`, into the totals. */
  function Step(p: Progress, row: Row, replies: Replies, rowNumber: nat): (q: Progress)
    ensures q.store.enrolments == p.store.enrolments
    ensures q.imported + |q.errors| == p.imported + |p.errors| + 1
    ensures q.errors == p.errors || (|q.errors| == |p.errors| + 1 && q.errors[..|p.errors|] == p.errors
                                     && q.errors[|p.errors|].row == rowNumber)
    ensures q.store.enquiries.next == p.store.enquiries.next + (q.imported - p.imported)
    ensures p.store.Valid() ==> q.store.Valid()
    ensures p.store.Valid() ==> Extends(p.store.leads, q.store.leads) && Extends(p.store.enquiries, q.store.enquiries)
  {
    var (s, err) := ImportRow(p.store, row, replies, rowNumber);
    if err.Some? then Progress(s, p.imported, p.errors + [err.value])
    else Progress(s, p.imported + 1, p.errors)
  }

  /** The `enquiries` field of the request body: an array of rows, or anything else. */
  datatype Body = NotAnArray | Rows(rows: seq<Row>)

  /** The handler's answer: rejected with 400, or completed with 200 and `success: true`. */
  datatype Response = Rejected | Completed(total: nat, imported: nat, errors: seq<RowError>) {
    /** 400 for a rejected body; 200 for every completed run, whatever
        its errors. */
    function Status(): (s: nat)
      ensures s == 200 <==> Success()
      ensures s == 200 || s == 400
    {
      if Rejected? then 400 else 200
    }
    predicate Success() {
      Completed?
    }
  }

  /** The handler: a non-array or empty list is rejected and nothing is
      stored; otherwise every row is processed in order (in slices of 50)
      and the response reports success, the row count, the imported count
      and the per-row errors, even when nothing was imported. */
  method Post(store: Store, body: Body, replies: nat -> Replies) returns (resp: Response, store': Store)
    ensures body.NotAnArray? || |body.rows| == 0 ==> resp == Rejected && store' == store
    ensures body.Rows? && |body.rows| > 0 ==>
      var p := ImportPrefix(store, body.rows, replies, |body.rows|);
      resp == Completed(|body.rows|, p.imported, p.errors) && store' == p.store
    ensures resp.Completed? ==> resp.imported + |resp.errors| == resp.total
  {
    if body.NotAnArray? || |body.rows| == 0 {
      return Rejected, store;
    }
    var rows := body.rows;
    var n := |rows|;
    var p := Progress(store, 0, []);
    var i := 0;
    while i < n
      invariant 0 <= i <= n
      invariant p == ImportPrefix(store, rows, replies, i)
      decreases n - i
    {
      var end := if i + BatchSize <= n then i + BatchSize else n;
      p := FoldSlice(Progress(store, 0, []), rows, StepAt(replies), p, i, end);
      i := end;
    }
    ImportPrefixFacts(store, rows, replies, n);
    return Completed(n, p.imported, p.errors), p.store;
  }
}

=== FILE: env_check.dfy ===
/** `check-env.js`: read the three Supabase settings from the text of
    `.env.local` and classify each as unset, a placeholder, missing its
    `https://` prefix (the URL only), or plausible. */
module EnvCheck {
  import opened Wrappers
  import opened Text
  import opened Seqs

  /** The three settings the script looks for. */
  datatype Setting = Url | AnonKey | ServiceKey

  function KeyName(s: Setting): string {
    match s
    case Url => "NEXT_PUBLIC_SUPABASE_URL"
    case AnonKey => "NEXT_PUBLIC_SUPABASE_ANON_KEY"
    case ServiceKey => "SUPABASE_SERVICE_ROLE_KEY"
  }

  /** The setting a key names, compared exactly; `None` for any other key. */
  function KnownSetting(key: string): (r: Option<Setting>)
    ensures r.Some? ==> KeyName(r.value) == key
    ensures r.None? ==> forall s: Setting :: KeyName(s) != key
  {
    if key == KeyName(Url) then Some(Url)
    else if key == KeyName(AnonKey) then Some(AnonKey)
    else if key == KeyName(ServiceKey) then Some(ServiceKey)
    else None
  }

  /** Distinct settings have distinct key names. */
  lemma KeyNamesDistinct(s: Setting, t: Setting)
    requires KeyName(s) == KeyName(t)
    ensures s == t
  {
  }

  /** The values read so far; `''` until a line sets them. */
  datatype Config = Config(url: string, anonKey: string, serviceKey: string) {
    function Get(s: Setting): string {
      match s
      case Url => url
      case AnonKey => anonKey
      case ServiceKey => serviceKey
    }

    /** No value has white space left at either end. */
    predicate Trimmed() {
      Bare(url) && Bare(anonKey) && Bare(serviceKey)
    }
  }

  const Unread := Config("", "", "")

  /** Empty, or starting and ending with a character that is not white space. */
  predicate Bare(v: string) {
    v == "" || (!IsSpace(v[0]) && !IsSpace(v[|v| - 1]))
  }

  /** What one line of the file says: nothing, or a key and a value. */
  datatype Line = Skip | Pair(key: string, value: string)

  /** A trimmed line that is empty or starts with `#` is skipped. Otherwise
      the key is the text before the first `=`, and the value is the rest
      (rejoined with `=`) trimmed. */
  function ParseLine(line: string): (l: Line)
    ensures l.Skip? <==> Trim(line) == "" || StartsWith(Trim(line), "#")
    ensures l.Pair? ==> '=' !in l.key && Bare(l.value)
  {
    var t := Trim(line);
    if StartsWith(t, "#") || t == "" then Skip
    else
      var parts := Split(t, '=');
      Pair(parts[0], Trim(Join(parts[1..], '=')))
  }

  /** What `ParseLine` reads, in terms of the first `=` of the trimmed line. */
  lemma ParseLineSpec(line: string)
    ensures ParseLine(line).Skip? <==> Trim(line) == "" || StartsWith(Trim(line), "#")
    ensures ParseLine(line).Pair? && IndexOf(Trim(line), '=').None? ==> ParseLine(line) == Pair(Trim(line), "")
    ensures ParseLine(line).Pair? && IndexOf(Trim(line), '=').Some? ==>
      var t, k := Trim(line), IndexOf(Trim(line), '=').value;
      ParseLine(line) == Pair(t[..k], Trim(t[k + 1..]))
  {
    AfterFirst(Trim(line), '=');
    TrimUnchanged("");
  }

  /** A value keeps every `=` after the first one: `KEY=a=b` has value `a=b`. */
  lemma ValueKeepsEquals(key: string, value: string)
    requires '=' !in key && key != "" && key[0] != '#' && !IsSpace(key[0])
    requires value != "" && !IsSpace(value[0]) && !IsSpace(value[|value| - 1])
    ensures ParseLine(key + "=" + value) == Pair(key, value)
  {
    var t := key + "=" + value;
    assert t[0] == key[0] && t[|t| - 1] == value[|value| - 1];
    TrimUnchanged(t);
    TrimUnchanged(value);
    assert !StartsWith(t, "#") by {
      assert t[..1] == [key[0]];
    }
    SplitAfterFirst(key, '=', value);
    assert Split(t, '=')[1..] == Split(value, '=');
    JoinSplit(value, '=');
  }

  /** Recording one line: only a known key, compared exactly, changes its setting. */
  function Record(c: Config, l: Line): Config {
    match l
    case Skip => c
    case Pair(key, value) =>
      match KnownSetting(key)
      case None => c
      case Some(Url) => c.(url := value)
      case Some(AnonKey) => c.(anonKey := value)
      case Some(ServiceKey) => c.(serviceKey := value)
  }

  lemma RecordSetting(c: Config, l: Line, s: Setting)
    ensures Record(c, l).Get(s) == if l.Pair? && l.key == KeyName(s) then l.value else c.Get(s)
  {
    if l.Pair? && KnownSetting(l.key).Some? {
      var t := KnownSetting(l.key).value;
      if l.key == KeyName(s) { KeyNamesDistinct(t, s); }
    }
  }

  /** The settings after the lines `ls`, read in order (`lines.forEach`). */
  function ReadParsed(ls: seq<Line>): (c: Config)
    ensures (forall i :: 0 <= i < |ls| && ls[i].Pair? ==> Bare(ls[i].value)) ==> c.Trimmed()
    decreases |ls|
  {
    if |ls| == 0 then Unread
    else
      var init := ls[..|ls| - 1];
      assert forall i :: 0 <= i < |init| ==> init[i] == ls[i];
      Record(ReadParsed(init), ls[|ls| - 1])
  }

  /** Reading the text of the file: its lines are its pieces between `\n`. */
  function ReadEnv(content: string): (c: Config)
    ensures c.Trimmed()
  {
    ReadParsed(Map(Split(content, '\n'), ParseLine))
  }

  /** The line `l` names the setting `s`. */
  predicate Names(l: Line, s: Setting) {
    l.Pair? && l.key == KeyName(s)
  }

  /** When no line names a setting, it stays `''`. */
  lemma {:induction false} UnnamedStaysEmpty(ls: seq<Line>, s: Setting)
    requires forall i :: 0 <= i < |ls| ==> !Names(ls[i], s)
    ensures ReadParsed(ls).Get(s) == ""
    decreases |ls|
  {
    if |ls| > 0 {
      UnnamedStaysEmpty(ls[..|ls| - 1], s);
      RecordSetting(ReadParsed(ls[..|ls| - 1]), ls[|ls| - 1], s);
    }
  }

  /** The last line that names a setting decides its value. */
  lemma {:induction false} LastOneWins(ls: seq<Line>, s: Setting, i: nat)
    requires i < |ls| && Names(ls[i], s)
    requires forall j :: i < j < |ls| ==> !Names(ls[j], s)
    ensures ReadParsed(ls).Get(s) == ls[i].value
    decreases |ls|
  {
    var init := ls[..|ls| - 1];
    RecordSetting(ReadParsed(init), ls[|ls| - 1], s);
    if i < |ls| - 1 {
      LastOneWins(init, s, i);
    }
  }

  datatype Verdict = Unset | Placeholder | MissingPrefix | Plausible

  const UrlPlaceholder := "your_supabase"
  const KeyPlaceholder := "your_"
  const AnonPlaceholder := "your_supabase_anon_key"
  const ServicePlaceholder := "your_supabase_service_role_key"

  lemma PlaceholdersStartWithFragment()
    ensures StartsWith(AnonPlaceholder, KeyPlaceholder)
    ensures StartsWith(ServicePlaceholder, KeyPlaceholder)
  {
    assert AnonPlaceholder[..5] == KeyPlaceholder;
    assert ServicePlaceholder[..5] == KeyPlaceholder;
  }
  const HttpsPrefix := "https://"

  /** The URL check, in order: empty, placeholder, missing `https://`, plausible. */
  function CheckUrl(v: string): (r: Verdict)
    ensures r == Unset <==> v == ""
    ensures r == Placeholder <==> v != "" && Contains(v, UrlPlaceholder)
    ensures r == MissingPrefix <==> v != "" && !Contains(v, UrlPlaceholder) && !StartsWith(v, HttpsPrefix)
    ensures r == Plausible <==> v != "" && !Contains(v, UrlPlaceholder) && StartsWith(v, HttpsPrefix)
  {
    PlaceholderEquality(v, "your_supabase_project_url", UrlPlaceholder);
    if v == "" then Unset
    else if Contains(v, UrlPlaceholder) || v == "your_supabase_project_url" then Placeholder
    else if !StartsWith(v, HttpsPrefix) then MissingPrefix
    else Plausible
  }

  /** A key check, in order: empty, placeholder (containing `your_`, or
      equal to the full placeholder), plausible. */
  function CheckKey(v: string, fullPlaceholder: string): (r: Verdict)
    ensures r != MissingPrefix
    ensures r == Unset <==> v == ""
    ensures r == Placeholder <==> v != "" && (Contains(v, KeyPlaceholder) || v == fullPlaceholder)
  {
    if v == "" then Unset
    else if Contains(v, KeyPlaceholder) || v == fullPlaceholder then Placeholder
    else Plausible
  }

  /** For the two placeholders the script uses, the equality test is
      redundant: a key is a placeholder exactly when it contains `your_`. */
  lemma KeyPlaceholderTest(v: string)
    ensures CheckKey(v, AnonPlaceholder) == Placeholder <==> v != "" && Contains(v, KeyPlaceholder)
    ensures CheckKey(v, ServicePlaceholder) == Placeholder <==> v != "" && Contains(v, KeyPlaceholder)
  {
    PlaceholdersStartWithFragment();
    PlaceholderEquality(v, AnonPlaceholder, KeyPlaceholder);
    PlaceholderEquality(v, ServicePlaceholder, KeyPlaceholder);
  }

  /** Equality with the full placeholder adds nothing to the `includes`
      test: the full placeholder starts with the fragment searched for. */
  lemma PlaceholderEquality(v: string, full: string, fragment: string)
    requires StartsWith(full, fragment)
    ensures v == full ==> Contains(v, fragment)
  {
  }

  /** The report: the file is missing (exit code 1), or a verdict per setting. */
  datatype Report = FileMissing | Checked(url: Verdict, anonKey: Verdict, serviceKey: Verdict)

  /** The whole script; `content` is `None` when `.env.local` does not exist. */
  function Check(content: Option<string>): (r: Report)
    ensures r.FileMissing? <==> content.None?
    ensures r.Checked? ==> r.url == CheckUrl(ReadEnv(content.value).url)
    ensures r.Checked? ==> r.anonKey == CheckKey(ReadEnv(content.value).anonKey, AnonPlaceholder)
    ensures r.Checked? ==> r.serviceKey == CheckKey(ReadEnv(content.value).serviceKey, ServicePlaceholder)
  {
    if content.None? then FileMissing
    else
      var c := ReadEnv(content.value);
      Checked(CheckUrl(c.url),
              CheckKey(c.anonKey, AnonPlaceholder),
              CheckKey(c.serviceKey, ServicePlaceholder))
  }

  /** A file none of whose lines names a setting reports it unset. */
  lemma UnnamedIsUnset(content: string, s: Setting)
    requires forall i :: 0 <= i < |Split(content, '\n')| ==> !Names(ParseLine(Split(content, '\n')[i]), s)
    ensures s == Url ==> Check(Some(content)).url == Unset
    ensures s == AnonKey ==> Check(Some(content)).anonKey == Unset
    ensures s == ServiceKey ==> Check(Some(content)).serviceKey == Unset
  {
    UnnamedStaysEmpty(Map(Split(content, '\n'), ParseLine), s);
  }

  /** What a plausible value prints: its first 30 characters and `...`. */
  function Preview(v: string): (p: string)
    ensures |p| == (if |v| <= 30 then |v| else 30) + 3
    ensures p[|p| - 3..] == "..." && p[..|p| - 3] == v[..|p| - 3]
  {
    (if |v| <= 30 then v else v[..30]) + "..."
  }
}

=== FILE: eves.dfy ===
/** The EVES report (Enquiries, Visits, Enrolments, Starters) for one
    selected month `YYYY-MM`. */
module Eves {
  import opened Wrappers
  import opened Text
  import opened Numerals
  import opened Dates
  import opened Records
  import opened Seqs

  /** `YYYY-MM`: the year as `String(year)` and the month zero-padded to two digits. */
  function MonthValue(year: nat, month: nat): string {
    Decimal(year) + "-" + ZeroPadded(month, 2)
  }

  /** The month value splits at its one `-` into the year and the month numerals. */
  lemma SplitMonthValue(year: nat, month: nat)
    ensures Split(MonthValue(year, month), '-') == [Decimal(year), ZeroPadded(month, 2)]
  {
    var y, m := Decimal(year), ZeroPadded(month, 2);
    DigitsExclude(y, '-');
    DigitsExclude(m, '-');
    SplitTwo(y, '-', m);
  }

  /** `getCurrentMonthValue()`: the month of `now`, whose two parts read back
      as the year and the month, the month part being exactly two digits. */
  function CurrentMonthValue(now: Instant): (v: string)
    requires ValidDay(now.day)
    ensures |Split(v, '-')| == 2
    ensures ParseNat(Split(v, '-')[0]) == Some(now.day.year)
    ensures |Split(v, '-')[1]| == 2 && ParseNat(Split(v, '-')[1]) == Some(now.day.month)
  {
    var v := MonthValue(now.day.year, now.day.month);
    SplitMonthValue(now.day.year, now.day.month);
    DecimalRoundTrip(now.day.year);
    ZeroPaddedRoundTrip(now.day.month, 2);
    Pow10Small();
    v
  }

  /** The comparison inside `isInMonth`: the day's year and 1-based month
      against `Number` of the two parts of `month` split at `-`. */
  function MonthMatches(d: Day, month: string): bool {
    var parts := Split(month, '-');
    var year := JsNumber(parts[0]);
    var monthPart := if |parts| > 1 then JsNumber(parts[1]) else None;
    year == Some(d.year) && monthPart == Some(d.month)
  }

  /** `isInMonth(dateString, month)`: a missing, empty or unparseable date is
      in no month; otherwise its day is compared with `month`. */
  function IsInMonth(date: Option<string>, month: string): (r: bool)
    ensures r ==> Truthy(date) && ParseTimestamp(date.value).Some?
  {
    if !Truthy(date) then false
    else
      match ParseTimestamp(date.value)
      case None => false
      case Some(d) => MonthMatches(d, month)
  }

  /** A day matches a month value exactly when it has that year and month. */
  lemma MonthMatchesValue(d: Day, year: nat, month: nat)
    ensures MonthMatches(d, MonthValue(year, month)) <==> d.year == year && d.month == month
  {
    SplitMonthValue(year, month);
    JsNumberOfDecimal(year);
    JsNumberOfPadded(month, 2);
  }

  /** For a month value the picker produces, `IsInMonth` holds exactly for a
      date that parses to that year and month. */
  lemma IsInMonthOfMonthValue(date: Option<string>, year: nat, month: nat)
    ensures IsInMonth(date, MonthValue(year, month)) <==>
      Truthy(date) && ParseTimestamp(date.value).Some?
      && ParseTimestamp(date.value).value.year == year
      && ParseTimestamp(date.value).value.month == month
  {
    if Truthy(date) && ParseTimestamp(date.value).Some? {
      MonthMatchesValue(ParseTimestamp(date.value).value, year, month);
    }
  }

  /** The intake named by a month part: February, May, August and November
      for `02`, `05`, `08`, `11`; none otherwise. */
  function IntakeOfPart(part: string): (r: Option<string>)
    ensures r.Some? <==> part == "02" || part == "05" || part == "08" || part == "11"
    ensures r.Some? ==> r.value in {IntakeFebruary, IntakeMay, IntakeAugust, IntakeNovember}
  {
    if part == "02" then Some(IntakeFebruary)
    else if part == "05" then Some(IntakeMay)
    else if part == "08" then Some(IntakeAugust)
    else if part == "11" then Some(IntakeNovember)
    else None
  }

  /** The intake whose students start in the selected month, read from the
      part of `month` after its first `-`; none when there is no such part. */
  function IntakeTarget(month: string): (r: Option<string>)
    ensures r.Some? ==> r.value in {IntakeFebruary, IntakeMay, IntakeAugust, IntakeNovember}
  {
    var parts := Split(month, '-');
    if |parts| < 2 then None else IntakeOfPart(parts[1])
  }

  /** The intake starting in a calendar month, by month number. */
  function IntakeOfMonth(month: nat): (r: Option<string>)
    ensures r.Some? <==> month == 2 || month == 5 || month == 8 || month == 11
    ensures r.Some? ==> r.value in {IntakeFebruary, IntakeMay, IntakeAugust, IntakeNovember}
  {
    if month == 2 then Some(IntakeFebruary)
    else if month == 5 then Some(IntakeMay)
    else if month == 8 then Some(IntakeAugust)
    else if month == 11 then Some(IntakeNovember)
    else None
  }

  /** A one-digit month is padded with one zero. */
  lemma PaddedDigit(d: nat)
    requires d < 10
    ensures ZeroPadded(d, 2) == ['0', DigitChar(d)]
  {
    assert Decimal(d) == [DigitChar(d)];
    assert seq(1, _ => '0') == ['0'];
  }

  lemma PaddedEleven()
    ensures ZeroPadded(11, 2) == "11"
  {
    assert Decimal(11) == Decimal(1) + [DigitChar(1)];
    assert Decimal(11) == "11";
  }

  /** The values of the intake numerals. */
  lemma IntakeNumeralValues()
    ensures ParseNat("02") == Some(2) && ParseNat("05") == Some(5)
    ensures ParseNat("08") == Some(8) && ParseNat("11") == Some(11)
  {
    TwoDigitValue('0', '2');
    TwoDigitValue('0', '5');
    TwoDigitValue('0', '8');
    TwoDigitValue('1', '1');
  }

  lemma TwoDigitValue(a: char, b: char)
    requires IsDigit(a) && IsDigit(b)
    ensures ParseNat([a, b]) == Some(10 * DigitValue(a) + DigitValue(b))
  {
    assert [a, b][..1] == [a];
    assert [a][..0] == [];
    assert DigitsValue([a]) == DigitValue(a);
    assert DigitsValue([a, b]) == 10 * DigitsValue([a]) + DigitValue(b);
  }

  /** A numeral of `month` names the intake of `month`, given that the intake
      months are written `02`, `05`, `08` and `11`. */
  lemma IntakeOfNumeral(m: string, month: nat)
    requires ParseNat(m) == Some(month)
    requires month == 2 ==> m == "02"
    requires month == 5 ==> m == "05"
    requires month == 8 ==> m == "08"
    requires month == 11 ==> m == "11"
    ensures IntakeOfPart(m) == IntakeOfMonth(month)
  {
    IntakeNumeralValues();
  }

  /** The month part of a month value names an intake exactly when its number does. */
  lemma IntakeOfPaddedMonth(month: nat)
    ensures IntakeOfPart(ZeroPadded(month, 2)) == IntakeOfMonth(month)
  {
    ZeroPaddedRoundTrip(month, 2);
    if month == 2 || month == 5 || month == 8 {
      PaddedDigit(month);
    } else if month == 11 {
      PaddedEleven();
    }
    IntakeOfNumeral(ZeroPadded(month, 2), month);
  }

  /** The string test on the month part agrees with the month number, for any year. */
  lemma IntakeTargetOfMonthValue(year: nat, month: nat)
    ensures IntakeTarget(MonthValue(year, month)) == IntakeOfMonth(month)
  {
    SplitMonthValue(year, month);
    IntakeOfPaddedMonth(month);
  }

  datatype EvesStats = EvesStats(
    month: string,
    enquiries: nat,
    visits: nat,
    enrolments: nat,
    starters: nat)

  function CreatedIn(month: string): Enquiry -> bool {
    (e: Enquiry) => IsInMonth(e.createdAt, month)
  }

  function VisitedIn(month: string): Enquiry -> bool {
    (e: Enquiry) => IsInMonth(e.visitDate, month)
  }

  function EnrolledIn(month: string): Enrolment -> bool {
    (e: Enrolment) => IsInMonth(e.createdAt, month)
  }

  function OfIntake(intake: string): Enrolment -> bool {
    (e: Enrolment) => e.intake == Some(intake)
  }

  /** The `stats` of the report page. Visits are counted by visit date alone,
      whatever the enquiry's status; starters are the enrolments of the
      month's intake, whatever their year or date. */
  function Stats(enquiries: seq<Enquiry>, enrolments: seq<Enrolment>, month: string): (s: EvesStats)
    ensures s.month == month
    ensures s.enquiries <= |enquiries| && s.visits <= |enquiries|
    ensures s.enrolments <= |enrolments| && s.starters <= |enrolments|
    ensures IntakeTarget(month).None? ==> s.starters == 0
  {
    var target := IntakeTarget(month);
    EvesStats(
      month,
      |Filter(enquiries, CreatedIn(month))|,
      |Filter(enquiries, VisitedIn(month))|,
      |Filter(enrolments, EnrolledIn(month))|,
      if target.Some? then |Filter(enrolments, OfIntake(target.value))| else 0)
  }

  function Indicator(b: bool): nat {
    if b then 1 else 0
  }

  /** One more enquiry adds one to the enquiries count exactly when it was
      created in the month, and one to the visits count exactly when its visit
      date is in the month; the enrolment counts do not move. With the counts
      of the empty list being 0, this pins the two counts down. */
  lemma StatsAddEnquiry(enquiries: seq<Enquiry>, e: Enquiry, enrolments: seq<Enrolment>, month: string)
    ensures var before, after := Stats(enquiries, enrolments, month), Stats(enquiries + [e], enrolments, month);
      && after.enquiries == before.enquiries + Indicator(IsInMonth(e.createdAt, month))
      && after.visits == before.visits + Indicator(IsInMonth(e.visitDate, month))
      && after.enrolments == before.enrolments
      && after.starters == before.starters
  {
    FilterConcat(enquiries, [e], CreatedIn(month));
    FilterConcat(enquiries, [e], VisitedIn(month));
  }

  /** One more enrolment adds one to the enrolments count exactly when it was
      created in the month, and one to the starters count exactly when the
      month has an intake and the enrolment belongs to it. */
  lemma StatsAddEnrolment(enquiries: seq<Enquiry>, enrolments: seq<Enrolment>, r: Enrolment, month: string)
    ensures var before, after := Stats(enquiries, enrolments, month), Stats(enquiries, enrolments + [r], month);
      && after.enquiries == before.enquiries
      && after.visits == before.visits
      && after.enrolments == before.enrolments + Indicator(IsInMonth(r.createdAt, month))
      && after.starters == before.starters
           + Indicator(IntakeTarget(month).Some? && r.intake == IntakeTarget(month))
  {
    FilterConcat(enrolments, [r], EnrolledIn(month));
    var target := IntakeTarget(month);
    if target.Some? {
      FilterConcat(enrolments, [r], OfIntake(target.value));
    }
  }

  /** The report of an empty data set is all zeros. */
  lemma StatsEmpty(month: string)
    ensures Stats([], [], month) == EvesStats(month, 0, 0, 0, 0)
  {
  }

  /** Starters do not depend on the year of the selected month. */
  lemma StartersIgnoreYear(enquiries: seq<Enquiry>, enrolments: seq<Enrolment>, y1: nat, y2: nat, month: nat)
    ensures Stats(enquiries, enrolments, MonthValue(y1, month)).starters
         == Stats(enquiries, enrolments, MonthValue(y2, month)).starters
  {
    IntakeTargetOfMonthValue(y1, month);
    IntakeTargetOfMonthValue(y2, month);
  }
}

=== FILE: lead_create.dfy ===
/** `POST /api/leads`: build the insert payload from the submitted lead,
    clean it, and insert it. */
module LeadCreate {
  import opened Wrappers
  import opened Text
  import opened Records
  import opened Storage

  /** A JSON value as the payload holds it: `undefined`, `null` or a string. */
  datatype Field = Undefined | Null | Text(text: string)

  /** The payload's keys: `name`, `email`, `phone`, `company`, `source`, `status`, `notes`. */
  datatype Key = Name | Email | Phone | Company | Source | Status | Notes

  /** The keys in the order `Object.keys` lists them. */
  const Keys: seq<Key> := [Name, Email, Phone, Company, Source, Status, Notes]

  /** The keys whose empty value becomes `null` instead of being removed. */
  predicate Nullable(k: Key) {
    k != Name && k != Status
  }

  /** The submitted lead; every field may be missing. */
  datatype LeadBody = LeadBody(
    name: Option<string>,
    email: Option<string>,
    phone: Option<string>,
    company: Option<string>,
    source: Option<string>,
    status: Option<string>,
    notes: Option<string>)

  /** `x || null` for an optional string already normalised to `None` or non-empty. */
  function OrNull(o: Option<string>): Field {
    if o.Some? then Text(o.value) else Null
  }

  /** A nullable field as the payload holds it: `null`, or a trimmed non-empty string. */
  predicate NormalNullable(f: Field) {
    f == Null || (f.Text? && f.text != "" && Trim(f.text) == f.text)
  }

  /** `x?.trim() || null`. */
  function NullableField(o: Option<string>): (f: Field)
    ensures NormalNullable(f)
    ensures f == Null <==> o.None? || IsBlank(o.value)
    ensures f.Text? ==> f.text == Trim(o.value)
  {
    assert o.Some? ==> Trim(Trim(o.value)) == Trim(o.value) by {
      if o.Some? { TrimIdempotent(o.value); }
    }
    OrNull(TrimOrNull(o))
  }

  /** The value `leadData` holds under key `k` before cleanup: the name
      trimmed (`undefined` when absent), each nullable field trimmed with
      blank as `null`, and the status as given (not trimmed) or `new`. */
  function FieldOf(b: LeadBody, k: Key): (f: Field)
    ensures k == Name ==> f == (if b.name.Some? then Text(Trim(b.name.value)) else Undefined)
    ensures Nullable(k) ==> NormalNullable(f)
    ensures k == Status ==> f.Text? && f.text != "" && f.text == (if Truthy(b.status) then b.status.value else LeadNew)
  {
    match k
    case Name => if b.name.Some? then Text(Trim(b.name.value)) else Undefined
    case Email => NullableField(b.email)
    case Phone => NullableField(b.phone)
    case Company => NullableField(b.company)
    case Source => NullableField(b.source)
    case Status => Text(OrElse(b.status, LeadNew))
    case Notes => NullableField(b.notes)
  }

  /** `leadData` before cleanup. */
  function LeadData(b: LeadBody): (d: map<Key, Field>)
    ensures forall k :: k in d <==> k in Keys
    ensures forall k :: k in d ==> d[k] == FieldOf(b, k)
  {
    map k | k in Keys :: FieldOf(b, k)
  }

  /** Every key is listed. */
  lemma KeyListed(k: Key)
    ensures k in Keys
  {
    match k
    case Name =>
    case Email =>
    case Phone =>
    case Company =>
    case Source =>
    case Status =>
    case Notes =>
  }

  /** A value the cleanup acts on: `undefined` or the empty string. */
  predicate Empty(f: Field) {
    f == Undefined || f == Text("")
  }

  /** What the cleanup leaves, stated for all keys at once: an empty value
      under a nullable key becomes `null` when it is `''`; under any other
      key it is removed; every other entry stays. */
  function CleanRef(d: map<Key, Field>): (c: map<Key, Field>)
    ensures forall k :: k in c <==> k in d && (Nullable(k) || !Empty(d[k]))
    ensures forall k :: k in c ==> c[k] == (if d[k] == Text("") then Null else d[k])
  {
    map k | k in d && (Nullable(k) || !Empty(d[k])) :: if d[k] == Text("") then Null else d[k]
  }

  /** The cleanup's treatment of one key: only that key's entry can change. */
  function CleanKey(d: map<Key, Field>, k: Key): (r: map<Key, Field>)
    ensures forall j :: j != k ==> (j in r <==> j in d) && (j in r ==> r[j] == d[j])
    ensures k in r <==> k in d && (Nullable(k) || !Empty(d[k]))
    ensures k in r ==> r[k] == (if d[k] == Text("") then Null else d[k])
  {
    if k in d && Empty(d[k]) then
      if !Nullable(k) then d - {k}
      else if d[k] == Text("") then d[k := Null]
      else d
    else d
  }

  /** The cleanup loop, key by key in `Object.keys` order, deleting from and
      writing to the payload as it goes. For a payload whose keys are the
      listed keys, it computes `CleanRef`. */
  method Cleanup(d: map<Key, Field>, keys: seq<Key>) returns (c: map<Key, Field>)
    requires forall k :: k in d <==> k in keys
    requires forall i, j :: 0 <= i < j < |keys| ==> keys[i] != keys[j]
    ensures c == CleanRef(d)
  {
    c := d;
    var i := 0;
    while i < |keys|
      invariant 0 <= i <= |keys|
      invariant CleanedUpTo(d, keys, c, i)
    {
      CleanStep(d, keys, c, i);
      c := CleanKey(c, keys[i]);
      i := i + 1;
    }
    SameMap(c, CleanRef(d), d, keys);
  }

  /** After `i` keys: the first `i` keys are as `CleanRef` has them, the
      rest as `d` has them, and no other key has appeared. */
  ghost predicate CleanedUpTo(d: map<Key, Field>, keys: seq<Key>, c: map<Key, Field>, i: nat)
    requires i <= |keys|
  {
    && (forall k :: k in c ==> k in d)
    && (forall j :: i <= j < |keys| ==> keys[j] in c && c[keys[j]] == d[keys[j]])
    && (forall j :: 0 <= j < i ==> (keys[j] in c <==> keys[j] in CleanRef(d)))
    && (forall j :: 0 <= j < i && keys[j] in c ==> c[keys[j]] == CleanRef(d)[keys[j]])
  }

  lemma CleanStep(d: map<Key, Field>, keys: seq<Key>, c: map<Key, Field>, i: nat)
    requires forall i, j :: 0 <= i < j < |keys| ==> keys[i] != keys[j]
    requires i < |keys| && CleanedUpTo(d, keys, c, i)
    ensures CleanedUpTo(d, keys, CleanKey(c, keys[i]), i + 1)
  {
  }

  /** Two maps that agree on every listed key and hold only keys of `d`,
      all of which are listed, are equal. */
  lemma SameMap(c: map<Key, Field>, ref: map<Key, Field>, d: map<Key, Field>, keys: seq<Key>)
    requires forall k :: k in d <==> k in keys
    requires forall k :: k in c ==> k in d
    requires forall k :: k in ref ==> k in d
    requires forall j :: 0 <= j < |keys| ==> (keys[j] in c <==> keys[j] in ref)
    requires forall j :: 0 <= j < |keys| && keys[j] in c ==> c[keys[j]] == ref[keys[j]]
    ensures c == ref
  {
    forall k | k in d ensures (k in c <==> k in ref) && (k in c ==> c[k] == ref[k]) {
      var j :| 0 <= j < |keys| && keys[j] == k;
    }
  }

  /** The payload sent to the database. */
  function Payload(b: LeadBody): (p: map<Key, Field>)
    ensures Name in p ==> b.name.Some? && p[Name] == Text(Trim(b.name.value))
    ensures Status in p && p[Status] == Text(OrElse(b.status, LeadNew))
  {
    var d := LeadData(b);
    KeyListed(Name);
    KeyListed(Status);
    assert d[Name] == FieldOf(b, Name) && d[Status] == FieldOf(b, Status);
    CleanRef(d)
  }

  /** The payload carries the name exactly when it is given and not blank,
      and then trimmed; every nullable field is present, as `null` or a
      trimmed non-empty string; the status is always present and non-empty;
      no value is `undefined` or `''`. */
  lemma PayloadShape(b: LeadBody)
    ensures var p := Payload(b);
      && (Name in p <==> b.name.Some? && !IsBlank(b.name.value))
      && (Name in p ==> p[Name] == Text(Trim(b.name.value)))
      && (forall k :: Nullable(k) ==> k in p && NormalNullable(p[k]))
      && Status in p && p[Status] == FieldOf(b, Status)
      && (forall k :: k in p ==> !Empty(p[k]))
  {
    PayloadName(b);
    forall k | Nullable(k) ensures k in Payload(b) && NormalNullable(Payload(b)[k]) {
      PayloadNullable(b, k);
    }
  }

  lemma PayloadName(b: LeadBody)
    ensures Name in Payload(b) <==> b.name.Some? && !IsBlank(b.name.value)
  {
    KeyListed(Name);
    var d := LeadData(b);
    assert d[Name] == FieldOf(b, Name);
  }

  lemma PayloadNullable(b: LeadBody, k: Key)
    requires Nullable(k)
    ensures k in Payload(b) && NormalNullable(Payload(b)[k])
  {
    KeyListed(k);
    var d := LeadData(b);
    assert d[k] == FieldOf(b, k);
  }

  /** The row the database stores for a payload; an absent name reads as `''`. */
  function ToLead(p: map<Key, Field>): (l: Lead)
    ensures l.id.None? && l.createdAt.None?
    ensures Name in p && p[Name].Text? ==> l.name == p[Name].text
    ensures Name !in p ==> l.name == ""
    ensures Status !in p ==> l.status == LeadNew
    ensures Email in p && p[Email] == Null ==> l.email.None?
  {
    Lead(None, TextAt(p, Name).GetOr(""), TextAt(p, Email), TextAt(p, Phone), TextAt(p, Company),
         TextAt(p, Source), TextAt(p, Status).GetOr(LeadNew), TextAt(p, Notes), None)
  }

  /** The text a payload holds under `k`, if any. */
  function TextAt(p: map<Key, Field>, k: Key): Option<string> {
    if k in p && p[k].Text? then Some(p[k].text) else None
  }

  /** The submitted value of a nullable key. */
  function Given(b: LeadBody, k: Key): Option<string>
    requires Nullable(k)
  {
    match k
    case Email => b.email
    case Phone => b.phone
    case Company => b.company
    case Source => b.source
    case Notes => b.notes
  }

  /** The stored row's column for a nullable key. */
  function LeadField(l: Lead, k: Key): Option<string>
    requires Nullable(k)
  {
    match k
    case Email => l.email
    case Phone => l.phone
    case Company => l.company
    case Source => l.source
    case Notes => l.notes
  }

  /** A nullable field is stored trimmed, with a missing or blank value stored as none. */
  lemma StoredNullable(b: LeadBody, k: Key)
    requires Nullable(k)
    ensures LeadField(ToLead(Payload(b)), k) == TrimOrNull(Given(b, k))
  {
    KeyListed(k);
    var d := LeadData(b);
    assert d[k] == FieldOf(b, k) == NullableField(Given(b, k));
    assert TextAt(Payload(b), k) == TrimOrNull(Given(b, k));
  }

  /** The stored row's name is the submitted name trimmed, empty when it is
      missing or blank; its status is the submitted one or `new`. */
  lemma StoredLead(b: LeadBody)
    ensures var l := ToLead(Payload(b));
      && l.name == (if b.name.Some? then Trim(b.name.value) else "")
      && l.status == OrElse(b.status, LeadNew)
  {
    PayloadName(b);
  }

  datatype Response =
    | ConfigMissing
    | ConnectionFailed(error: DbError)
    | InsertFailed(message: string, error: DbError)
    | Created(id: nat, lead: Lead)
  {
    /** 201 exactly when the lead was created; every failure is a 500. */
    function Status(): (s: nat)
      ensures s == 201 <==> Created?
      ensures s == 201 || s == 500
    {
      match this
      case Created(_, _) => 201
      case _ => 500
    }
  }

  /** The handler: configuration, then the connection test, then one insert.
      Only a successful insert stores a row and answers 201. */
  method Post(leads: Table<Lead>, env: Env, connection: Option<DbError>, body: LeadBody,
              insert: Option<DbError>) returns (resp: Response, leads': Table<Lead>)
    ensures resp == ConfigMissing <==> !Configured(env)
    ensures resp.ConnectionFailed? <==> Configured(env) && connection.Some?
    ensures resp.ConnectionFailed? ==> resp.error == connection.value
    ensures resp.InsertFailed? <==> Configured(env) && connection.None? && insert.Some?
    ensures resp.InsertFailed? ==>
      && resp.error == insert.value
      && resp.message == OrElse(Some(insert.value.message), "Failed to create lead")
      && resp.message != ""
    ensures resp.Status() == 201 <==> Configured(env) && connection.None? && insert.None?
    ensures resp.Status() != 201 ==> leads' == leads
    ensures resp.Created? ==>
      && resp.id == leads.next
      && leads'.rows == leads.rows[leads.next := ToLead(Payload(body))]
      && resp.lead == ToLead(Payload(body))
    ensures leads.Valid() ==> leads'.Valid()
  {
    if !Configured(env) {
      return ConfigMissing, leads;
    }
    if connection.Some? {
      return ConnectionFailed(connection.value), leads;
    }
    var d := LeadData(body);
    var payload := Cleanup(d, Keys);
    if insert.Some? {
      return InsertFailed(OrElse(Some(insert.value.message), "Failed to create lead"), insert.value), leads;
    }
    var lead := ToLead(payload);
    var (t, id) := leads.Insert(lead);
    return Created(id, lead), t;
  }
}

=== FILE: lead_import.dfy ===
/** `POST /api/leads/import`: validate an uploaded list of leads, drop the
    nameless ones, and insert the rest in batches of 100, reporting each
    failed batch by its 1-based number. */
module LeadImport {
  import opened Wrappers
  import opened Text
  import opened Numerals
  import opened Records
  import opened Storage
  import opened Seqs

  const BatchSize := 100
  const NoDataMessage := "No data returned from database insert"
  const PartialMessage := "Imported "
  const FullMessage := "Successfully imported "

  /** One uploaded lead; every field may be missing. */
  datatype RawLead = RawLead(
    name: Option<string>,
    email: Option<string>,
    phone: Option<string>,
    company: Option<string>,
    source: Option<string>,
    status: Option<string>,
    notes: Option<string>)

  /** A row is kept only when it has a name that is not blank. */
  predicate HasName(r: RawLead) {
    Truthy(r.name) && Trim(r.name.value) != ""
  }

  /** `status?.trim() || 'new'`: the trimmed status, or `new` when it is absent or blank. */
  function StatusOrNew(o: Option<string>): (s: string)
    ensures s != "" && Trim(s) == s
    ensures TrimOrNull(o).Some? ==> s == TrimOrNull(o).value
    ensures TrimOrNull(o).None? ==> s == LeadNew
  {
    var t := TrimOrNull(o);
    if t.Some? then
      TrimIdempotent(o.value);
      OrElse(t, LeadNew)
    else
      TrimUnchanged(LeadNew);
      OrElse(t, LeadNew)
  }

  /** `name.trim()`: for a kept row, a non-empty name with nothing left to trim. */
  function TrimmedName(r: RawLead): (n: string)
    ensures HasName(r) ==> n != "" && n == Trim(r.name.value) && Trim(n) == n
  {
    TrimIdempotent(OrElse(r.name, ""));
    Trim(OrElse(r.name, ""))
  }

  /** The lead a kept row becomes: every text trimmed, blank optional fields
      dropped. */
  function Format(r: RawLead): (l: Lead)
    ensures l.name == TrimmedName(r) && l.status == StatusOrNew(r.status)
    ensures l.email == TrimOrNull(r.email) && l.phone == TrimOrNull(r.phone)
    ensures l.company == TrimOrNull(r.company) && l.source == TrimOrNull(r.source)
    ensures l.notes == TrimOrNull(r.notes)
    ensures l.id.None? && l.createdAt.None?
  {
    Lead(None, TrimmedName(r), TrimOrNull(r.email), TrimOrNull(r.phone), TrimOrNull(r.company),
         TrimOrNull(r.source), StatusOrNew(r.status), TrimOrNull(r.notes), None)
  }

  function Kept(): RawLead -> bool {
    (r: RawLead) => HasName(r)
  }

  /** The `validLeads` list: the named rows, formatted, in upload order. */
  function Validate(raws: seq<RawLead>): (r: seq<Lead>)
    ensures |r| <= |raws|
    decreases |raws|
  {
    if |raws| == 0 then []
    else if HasName(raws[0]) then [Format(raws[0])] + Validate(raws[1..])
    else Validate(raws[1..])
  }

  /** Validation is formatting applied to exactly the rows that pass the
      name test, in their order; so every valid lead has a name, with
      nothing left to trim. */
  lemma ValidateFacts(raws: seq<RawLead>)
    ensures |Validate(raws)| == |Filter(raws, Kept())|
    ensures forall i :: 0 <= i < |Validate(raws)| ==>
      Validate(raws)[i].name != "" && Trim(Validate(raws)[i].name) == Validate(raws)[i].name
  {
    ValidateIsFormatOfKept(raws);
    var kept := Filter(raws, Kept());
    forall i | 0 <= i < |Validate(raws)|
      ensures Validate(raws)[i].name != "" && Trim(Validate(raws)[i].name) == Validate(raws)[i].name
    {
      assert Validate(raws)[i] == Format(kept[i]);
      assert HasName(kept[i]);
    }
  }

  /** A file whose rows all have a name keeps every row; one with no named
      row keeps none. */
  lemma ValidateCounts(raws: seq<RawLead>)
    ensures (forall i :: 0 <= i < |raws| ==> HasName(raws[i])) ==> |Validate(raws)| == |raws|
    ensures (forall i :: 0 <= i < |raws| ==> !HasName(raws[i])) ==> Validate(raws) == []
  {
    ValidateIsFormatOfKept(raws);
    if forall i :: 0 <= i < |raws| ==> HasName(raws[i]) {
      FilterKeepsAll(raws, Kept());
    }
    if forall i :: 0 <= i < |raws| ==> !HasName(raws[i]) {
      FilterKeepsNone(raws, Kept());
    }
  }

  lemma {:induction false} ValidateIsFormatOfKept(raws: seq<RawLead>)
    ensures Validate(raws) == Map(Filter(raws, Kept()), Format)
    decreases |raws|
  {
    if |raws| > 0 {
      ValidateIsFormatOfKept(raws[1..]);
      if HasName(raws[0]) {
        MapCons(raws[0], Filter(raws[1..], Kept()), Format);
      }
    }
  }

  /** How the database answers one batch insert: an error (nothing stored),
      the inserted rows returned, or no rows returned (taken as nothing stored). */
  datatype BatchReply = Failed(err: DbError) | Inserted | NoRows

  /** An entry of the response's `errors`. */
  datatype BatchError = BatchError(batch: nat, error: string, details: Option<string>, code: Option<string>)

  /** The number of batches for `n` rows: the least `c` with `n <= c * 100`. */
  function BatchCount(n: nat): (c: nat)
    ensures n == 0 <==> c == 0
    ensures c > 0 ==> (c - 1) * BatchSize < n <= c * BatchSize
  {
    (n + BatchSize - 1) / BatchSize
  }

  function Min(a: nat, b: nat): nat {
    if a <= b then a else b
  }

  /** `validLeads.slice(start, start + 100)`. */
  function BatchAt(valid: seq<Lead>, start: nat): (b: seq<Lead>)
    requires start < |valid|
    ensures 0 < |b| <= BatchSize
  {
    valid[start..Min(start + BatchSize, |valid|)]
  }

  /** Appending rows to a table, each with the next fresh id. */
  function InsertAll(t: Table<Lead>, rows: seq<Lead>): (t2: Table<Lead>)
    ensures t2.next == t.next + |rows|
    ensures forall k :: t.next <= k < t2.next ==> k in t2.rows && t2.rows[k] == rows[k - t.next]
    ensures forall k :: k in t2.rows ==> k in t.rows || t.next <= k < t2.next
    ensures forall k :: k in t.rows && k < t.next ==> k in t2.rows && t2.rows[k] == t.rows[k]
    ensures t.Valid() ==> t2.Valid() && Extends(t, t2)
    decreases |rows|
  {
    if |rows| == 0 then t
    else
      var t1 := Table(t.rows[t.next := rows[0]], t.next + 1);
      var rest := InsertAll(t1, rows[1..]);
      InsertAllStep(t, t1, rest, rows);
      rest
  }

  lemma InsertAllStep(t: Table<Lead>, t1: Table<Lead>, rest: Table<Lead>, rows: seq<Lead>)
    requires |rows| > 0 && t1 == Table(t.rows[t.next := rows[0]], t.next + 1)
    requires forall k :: t1.next <= k < t1.next + |rows[1..]| ==> k in rest.rows && rest.rows[k] == rows[1..][k - t1.next]
    requires forall k :: k in t1.rows && k < t1.next ==> k in rest.rows && rest.rows[k] == t1.rows[k]
    ensures forall k :: t.next <= k < t.next + |rows| ==> k in rest.rows && rest.rows[k] == rows[k - t.next]
  {
    assert t.next in t1.rows && t.next < t1.next && t1.rows[t.next] == rows[0];
    forall k | t.next < k < t.next + |rows| ensures k in rest.rows && rest.rows[k] == rows[k - t.next] {
      assert rows[1..][k - t1.next] == rows[k - t.next];
    }
  }

  /** Appending two lists of rows one after the other is appending their concatenation. */
  lemma {:induction false} InsertAllConcat(t: Table<Lead>, a: seq<Lead>, b: seq<Lead>)
    ensures InsertAll(InsertAll(t, a), b) == InsertAll(t, a + b)
    decreases |a|
  {
    if |a| == 0 {
      assert a + b == b;
    } else {
      var t1 := Table(t.rows[t.next := a[0]], t.next + 1);
      assert (a + b)[0] == a[0] && (a + b)[1..] == a[1..] + b;
      InsertAllCons(t, a + b);
      InsertAllCons(t, a);
      InsertAllConcat(t1, a[1..], b);
    }
  }

  /** Appending a non-empty list stores its first row under `next`, then the rest. */
  lemma InsertAllCons(t: Table<Lead>, rows: seq<Lead>)
    requires |rows| > 0
    ensures InsertAll(t, rows) == InsertAll(Table(t.rows[t.next := rows[0]], t.next + 1), rows[1..])
  {
  }

  /** The loop's running state: the leads table, `results`, `errors`, and the
      number of valid rows in failed batches. */
  datatype Run = Run(leads: Table<Lead>, results: seq<Lead>, errors: seq<BatchError>, failedRows: nat)

  /** Folding in batch number `number` (1-based) and the database's reply to it. */
  function BatchStep(r: Run, batch: seq<Lead>, reply: BatchReply, number: nat): (q: Run)
    ensures |q.results| + q.failedRows == |r.results| + r.failedRows + |batch|
    ensures Grows(r.errors, q.errors, number)
    ensures q.errors == r.errors <==> reply.Inserted?
    ensures r.leads.Valid() ==> q.leads.Valid() && Extends(r.leads, q.leads)
    ensures reply.Inserted? ==> q.results == r.results + batch && q.leads == InsertAll(r.leads, batch)
    ensures !reply.Inserted? ==> q.results == r.results && q.leads == r.leads
  {
    match reply
    case Failed(e) =>
      var detail := OrElse(e.details, OrElse(e.hint, ""));
      r.(errors := r.errors + [BatchError(number, e.message, Some(detail), e.code)],
         failedRows := r.failedRows + |batch|)
    case NoRows =>
      r.(errors := r.errors + [BatchError(number, NoDataMessage, None, None)],
         failedRows := r.failedRows + |batch|)
    case Inserted =>
      r.(leads := InsertAll(r.leads, batch), results := r.results + batch)
  }

  /** The state after the first `k` batches, batch `b` (0-based) being
      answered by `replies(b)`. */
  function RunPrefix(t: Table<Lead>, valid: seq<Lead>, replies: nat -> BatchReply, k: nat): (r: Run)
    requires k <= BatchCount(|valid|)
    ensures |r.results| + r.failedRows == Min(k * BatchSize, |valid|)
    ensures r.errors == [] <==> r.failedRows == 0
    ensures t.Valid() ==> r.leads.Valid() && Extends(t, r.leads)
    ensures r.leads.next == t.next + |r.results|
    ensures r.results == [] ==> r.leads == t
    ensures r.leads == InsertAll(t, r.results)
    ensures CleanRun(r, valid)
    ensures Numbered(r.errors, k)
    decreases k
  {
    if k == 0 then Run(t, [], [], 0)
    else
      var r := RunPrefix(t, valid, replies, k - 1);
      var start := (k - 1) * BatchSize;
      InsertAllConcat(t, r.results, BatchAt(valid, start));
      CleanStep(r, valid, start, replies(k - 1), k);
      var q := BatchStep(r, BatchAt(valid, start), replies(k - 1), k);
      NumberedStep(r.errors, q.errors, k);
      q
  }

  /** `errors` lists at most one entry per batch of the first `k`, by
      batch number, in increasing order. */
  ghost predicate Numbered(e: seq<BatchError>, k: nat) {
    && |e| <= k
    && (forall i :: 0 <= i < |e| ==> 1 <= e[i].batch <= k)
    && (forall i, j :: 0 <= i < j < |e| ==> e[i].batch < e[j].batch)
  }

  /** One batch's effect on the errors: none added, or one carrying the batch's
      number after the others. */
  ghost predicate Grows(e0: seq<BatchError>, e: seq<BatchError>, number: nat) {
    e == e0 || (|e| == |e0| + 1 && e[..|e0|] == e0 && e[|e0|].batch == number)
  }

  /** One batch keeps the numbering: it adds nothing, or its own number at the end. */
  lemma NumberedStep(e0: seq<BatchError>, e: seq<BatchError>, k: nat)
    requires k >= 1 && Numbered(e0, k - 1)
    requires Grows(e0, e, k)
    ensures Numbered(e, k)
  {
    if e != e0 {
      forall i | 0 <= i < |e0| ensures e[i] == e0[i] {
        assert e[..|e0|][i] == e[i];
      }
    }
  }

  /** Batch `k` starts at `k * 100`, whose batch number is `k + 1`; the loop
      runs while that start is below `n`, which is for the first
      `BatchCount(n)` batches. */
  lemma BatchIndex(n: nat, k: nat)
    requires k <= BatchCount(n)
    ensures (k * BatchSize) / BatchSize + 1 == k + 1
    ensures k * BatchSize < n <==> k < BatchCount(n)
  {
  }

  /** The state after `k + 1` batches is the state after `k` with batch `k + 1` folded in. */
  lemma RunPrefixStep(t: Table<Lead>, valid: seq<Lead>, replies: nat -> BatchReply, k: nat)
    requires k < BatchCount(|valid|)
    ensures (k * BatchSize) < |valid|
    ensures RunPrefix(t, valid, replies, k + 1)
         == BatchStep(RunPrefix(t, valid, replies, k), BatchAt(valid, k * BatchSize), replies(k), k + 1)
  {
  }

  /** The insert loop: `for (i = 0; i < n; i += 100)`, numbering batch `i` as
      `floor(i / 100) + 1`. */
  method InsertBatches(t: Table<Lead>, valid: seq<Lead>, replies: nat -> BatchReply) returns (r: Run)
    ensures r == RunPrefix(t, valid, replies, BatchCount(|valid|))
  {
    var n := |valid|;
    r := Run(t, [], [], 0);
    var i := 0;
    var k := 0;
    BatchIndex(n, k);
    while i < n
      invariant k <= BatchCount(n) && i == k * BatchSize
      invariant i < n <==> k < BatchCount(n)
      invariant r == RunPrefix(t, valid, replies, k)
      decreases BatchCount(n) - k
    {
      BatchIndex(n, k);
      var number := i / BatchSize + 1;
      assert i / BatchSize == k;
      RunPrefixStep(t, valid, replies, k);
      r := BatchStep(r, BatchAt(valid, i), replies(i / BatchSize), number);
      i := i + BatchSize;
      k := k + 1;
      BatchIndex(n, k);
    }
  }

  /** Every valid row is either returned as imported or lost with its batch;
      `errors` is empty exactly when every row was imported. */
  lemma ImportAccounting(t: Table<Lead>, valid: seq<Lead>, replies: nat -> BatchReply)
    ensures var r := RunPrefix(t, valid, replies, BatchCount(|valid|));
      && |r.results| + r.failedRows == |valid|
      && (r.errors == [] <==> |r.results| == |valid|)
  {
  }

  /** Without a failed batch, the rows returned are a prefix of the valid leads. */
  ghost predicate CleanRun(r: Run, valid: seq<Lead>) {
    r.errors == [] ==> r.results <= valid
  }

  /** One batch starting at `start`, right after the rows returned so far,
      keeps `CleanRun`. */
  lemma CleanStep(r: Run, valid: seq<Lead>, start: nat, reply: BatchReply, number: nat)
    requires start < |valid|
    requires r.errors == [] ==> |r.results| == start
    ensures CleanRun(r, valid) ==> CleanRun(BatchStep(r, BatchAt(valid, start), reply, number), valid)
  {
    var q := BatchStep(r, BatchAt(valid, start), reply, number);
    if CleanRun(r, valid) && q.errors == [] {
      assert r.results == valid[..start];
      assert q.results == valid[..Min(start + BatchSize, |valid|)];
    }
  }

  /** A prefix as long as the whole is the whole. */
  lemma FullPrefix(a: seq<Lead>, b: seq<Lead>)
    requires a <= b && |a| == |b|
    ensures a == b
  {
  }

  /** The run over every batch of the valid leads. */
  function WholeRun(t: Table<Lead>, valid: seq<Lead>, replies: nat -> BatchReply): Run {
    RunPrefix(t, valid, replies, BatchCount(|valid|))
  }

  /** The `leads` field of the request body: an array of rows, or anything else. */
  datatype Body = NotAnArray | Leads(rows: seq<RawLead>)

  datatype Response =
    | ConfigMissing
    | ConnectionFailed(error: DbError)
    | InvalidData
    | NoValidLeads
    | ImportFailed(total: nat, errors: seq<BatchError>)
    | Imported(imported: nat, total: nat, errors: seq<BatchError>)
  {
    /** 200 exactly for a completed import, 400 exactly for a rejected
        body, 500 otherwise. */
    function Status(): (s: nat)
      ensures s == 200 <==> Success()
      ensures s == 400 <==> InvalidData? || NoValidLeads?
      ensures s == 200 || s == 400 || s == 500
    {
      match this
      case ConfigMissing => 500
      case ConnectionFailed(_) => 500
      case InvalidData => 400
      case NoValidLeads => 400
      case ImportFailed(_, _) => 500
      case Imported(_, _, _) => 200
    }

    predicate Success() {
      Imported?
    }

    /** The `message` of a completed import: it says `Imported` (a partial
        import) exactly when some batch failed, and the number of rows stored
        follows its first words. */
    function Message(): (m: string)
      requires Imported?
      ensures StartsWith(m, PartialMessage) <==> errors != []
      ensures StartsWith(m, FullMessage) <==> errors == []
      ensures var p := if errors != [] then PartialMessage else FullMessage;
        |p| + |Decimal(imported)| <= |m| && m[|p|..|p| + |Decimal(imported)|] == Decimal(imported)
    {
      var n := Decimal(imported);
      if errors != [] then
        var m := PartialMessage + n + " out of " + Decimal(total) + " leads. Some batches failed.";
        assert m[..|PartialMessage|] == PartialMessage && m[|PartialMessage|..|PartialMessage| + |n|] == n;
        assert m[0] != FullMessage[0];
        m
      else
        var m := FullMessage + n + " leads.";
        assert m[..|FullMessage|] == FullMessage && m[|FullMessage|..|FullMessage| + |n|] == n;
        assert m[0] != PartialMessage[0];
        m
    }
  }

  /** The handler. The configuration and connection checks come first, then
      the body checks; a run is reported as a failure (500) only when no
      row was imported and some batch failed, and as a success otherwise. */
  method Post(leads: Table<Lead>, env: Env, connection: Option<DbError>, body: Body,
              replies: nat -> BatchReply) returns (resp: Response, leads': Table<Lead>)
    requires leads.Valid()
    ensures leads'.Valid() && Extends(leads, leads')
    ensures resp == ConfigMissing <==> !Configured(env)
    ensures resp.ConnectionFailed? <==> Configured(env) && connection.Some?
    ensures resp.ConnectionFailed? ==> resp.error == connection.value
    ensures resp.ConfigMissing? || resp.ConnectionFailed? ==> leads' == leads
    ensures resp == InvalidData <==>
      Configured(env) && connection.None? && (body.NotAnArray? || body.rows == [])
    ensures resp == NoValidLeads <==>
      Configured(env) && connection.None? && body.Leads?
      && body.rows != [] && Filter(body.rows, Kept()) == []
    ensures resp.ImportFailed? <==>
      Configured(env) && connection.None? && body.Leads? && Validate(body.rows) != []
      && WholeRun(leads, Validate(body.rows), replies).results == []
    ensures resp.Imported? <==>
      Configured(env) && connection.None? && body.Leads? && Validate(body.rows) != []
      && WholeRun(leads, Validate(body.rows), replies).results != []
    ensures resp.InvalidData? || resp.NoValidLeads? || resp.ImportFailed? ==> leads' == leads
    ensures resp.Imported? ==> resp.imported == |WholeRun(leads, Validate(body.rows), replies).results|
    ensures resp.Imported? ==> 0 < resp.imported <= resp.total == |Validate(body.rows)|
    ensures resp.Imported? ==> (resp.errors == [] <==> resp.imported == resp.total)
    ensures resp.Imported? ==> leads'.next == leads.next + resp.imported
    ensures resp.ImportFailed? ==> resp.errors != [] && resp.total == |Validate(body.rows)|
    ensures resp.Imported? || resp.ImportFailed? ==>
      resp.errors == WholeRun(leads, Validate(body.rows), replies).errors
    ensures resp.Imported? ==> leads' == InsertAll(leads, WholeRun(leads, Validate(body.rows), replies).results)
    ensures resp.Imported? && resp.errors == [] ==> leads' == InsertAll(leads, Validate(body.rows))
  {
    if !Configured(env) {
      return ConfigMissing, leads;
    }
    if connection.Some? {
      return ConnectionFailed(connection.value), leads;
    }
    if body.NotAnArray? || |body.rows| == 0 {
      return InvalidData, leads;
    }
    var valid := Validate(body.rows);
    ValidateFacts(body.rows);
    if |valid| == 0 {
      return NoValidLeads, leads;
    }
    var r := InsertBatches(leads, valid, replies);
    ImportAccounting(leads, valid, replies);
    if r.errors == [] {
      FullPrefix(r.results, valid);
    }
    if |r.results| == 0 && |r.errors| > 0 {
      return ImportFailed(|valid|, r.errors), leads;
    }
    return Imported(|r.results|, |valid|, r.errors), r.leads;
  }
}

=== FILE: lead_visit_modal.dfy ===
/** Recording a visit from a lead's card: the dialog creates a new enquiry,
    linked to the lead and already in the `visit` status. */
module LeadVisitModal {
  import opened Wrappers
  import opened Text
  import opened Dates
  import opened Records
  import opened Storage
  import opened Seqs
  import Visits
  import Eves

  /** The dialog's fields. */
  datatype LeadVisitForm = LeadVisitForm(visitDate: string, visitType: string, subject: string, message: string)

  const SubjectPrefix := "Visit from "

  /** The dialog opens on today's date, a walk-in, the subject
      `Visit from <lead name>` and an empty message. */
  function InitialForm(lead: Lead, now: Instant): (f: LeadVisitForm)
    requires ValidDay(now.day)
    ensures f.visitDate == IsoDate(now.day) && f.visitType == VisitWalkin && f.message == ""
    ensures StartsWith(f.subject, SubjectPrefix) && f.subject[|SubjectPrefix|..] == lead.name
  {
    LeadVisitForm(Today(now), VisitWalkin, SubjectPrefix + lead.name, "")
  }

  /** The body of `POST /api/enquiries`, stored as sent: an enquiry of the
      lead, already a visit of the chosen date and kind, with the form's
      subject and message. */
  function VisitEnquiry(lead: Lead, f: LeadVisitForm): (e: Enquiry)
    ensures e.leadId == lead.id && Visits.IsVisit()(e)
    ensures e.visitDate == Some(f.visitDate) && e.visitType == Some(f.visitType)
    ensures e.subject == f.subject && e.message == Some(f.message) && e.priority == PriorityMedium
    ensures e.id.None? && e.assignedTo.None? && e.createdAt.None? && e.lead.None?
  {
    Enquiry(
      None,
      lead.id,
      f.subject,
      Some(f.message),
      EnquiryVisit,
      PriorityMedium,
      None,
      Some(f.visitDate),
      Some(f.visitType),
      None,
      None)
  }

  /** The submit handler, with whether the request succeeds as `ok`: on success
      one enquiry is added under a fresh id and nothing else changes; on failure
      (`None`, the error alert) nothing changes. */
  function AddVisit(enquiries: Table<Enquiry>, lead: Lead, f: LeadVisitForm, ok: bool): (r: Option<(Table<Enquiry>, nat)>)
    ensures r.Some? <==> ok
    ensures r.Some? ==> r.value.0.rows == enquiries.rows[r.value.1 := VisitEnquiry(lead, f)]
    ensures r.Some? && enquiries.Valid() ==> r.value.1 !in enquiries.rows && r.value.0.Valid()
  {
    if ok then Some(enquiries.Insert(VisitEnquiry(lead, f))) else None
  }

  /** On the visits page the new enquiry appears after the visits already listed. */
  lemma AddedVisitListed(data: seq<Enquiry>, lead: Lead, f: LeadVisitForm)
    ensures Visits.VisitsOf(data + [VisitEnquiry(lead, f)]) == Visits.VisitsOf(data) + [VisitEnquiry(lead, f)]
  {
    FilterConcat(data, [VisitEnquiry(lead, f)], Visits.IsVisit());
  }

  /** In the report, the new enquiry adds one visit to the month of its visit
      date and to no other month. */
  lemma AddedVisitCounted(
    enquiries: seq<Enquiry>, enrolments: seq<Enrolment>, lead: Lead, f: LeadVisitForm, year: nat, month: nat)
    ensures var m := Eves.MonthValue(year, month);
      var d := ParseTimestamp(f.visitDate);
      Eves.Stats(enquiries + [VisitEnquiry(lead, f)], enrolments, m).visits
        == Eves.Stats(enquiries, enrolments, m).visits
           + Eves.Indicator(f.visitDate != "" && d.Some? && d.value.year == year && d.value.month == month)
  {
    var m := Eves.MonthValue(year, month);
    Eves.StatsAddEnquiry(enquiries, VisitEnquiry(lead, f), enrolments, m);
    Eves.IsInMonthOfMonthValue(Some(f.visitDate), year, month);
  }
}

=== FILE: numerals.dfy ===
/** Decimal numerals: JavaScript's `String(n)` for non-negative integers,
    `padStart` with zeros, and `Number(s)` for decimal integer numerals. */
module Numerals {
  import opened Wrappers
  import opened Text

  predicate IsDigit(c: char) {
    '0' <= c <= '9'
  }

  predicate AllDigits(s: string) {
    forall i :: 0 <= i < |s| ==> IsDigit(s[i])
  }

  function DigitChar(d: nat): (c: char)
    requires d < 10
    ensures IsDigit(c)
  {
    ('0' as int + d) as char
  }

  function DigitValue(c: char): (d: nat)
    requires IsDigit(c)
    ensures d < 10
  {
    c as int - '0' as int
  }

  /** The value of a string of decimal digits, most significant first. */
  function DigitsValue(s: string): nat
    requires AllDigits(s)
    decreases |s|
  {
    if |s| == 0 then 0 else 10 * DigitsValue(s[..|s| - 1]) + DigitValue(s[|s| - 1])
  }

  function Pow10(k: nat): (p: nat)
    ensures p >= 1
  {
    if k == 0 then 1 else 10 * Pow10(k - 1)
  }

  lemma Pow10Small()
    ensures Pow10(2) == 100 && Pow10(4) == 10000
  {
    assert Pow10(1) == 10;
    assert Pow10(3) == 1000;
  }

  /** `String(n)`: the shortest decimal numeral of `n`. */
  function Decimal(n: nat): (s: string)
    ensures 1 <= |s|
    ensures AllDigits(s)
    ensures |s| > 1 ==> s[0] != '0'
    decreases n
  {
    if n < 10 then [DigitChar(n)] else Decimal(n / 10) + [DigitChar(n % 10)]
  }

  /** A numeral of `n` below `10^k` needs at most `k` digits. */
  lemma {:induction false} DecimalLength(n: nat, k: nat)
    requires 1 <= k && n < Pow10(k)
    ensures |Decimal(n)| <= k
    decreases k
  {
    if n >= 10 {
      assert k >= 2;
      DecimalLength(n / 10, k - 1);
    }
  }

  /** The numeral of `n` reads back as `n`. */
  lemma {:induction false} DecimalValue(n: nat)
    ensures DigitsValue(Decimal(n)) == n
    decreases n
  {
    if n >= 10 {
      var s := Decimal(n);
      assert s[..|s| - 1] == Decimal(n / 10);
      DecimalValue(n / 10);
    }
  }

  /** A string of `k` digits is worth less than `10^k`. */
  lemma {:induction false} DigitsBound(s: string)
    requires AllDigits(s)
    ensures DigitsValue(s) < Pow10(|s|)
    decreases |s|
  {
    if |s| > 0 {
      DigitsBound(s[..|s| - 1]);
    }
  }

  /** A non-empty digit string's value, nothing for anything else. */
  function ParseNat(s: string): (r: Option<nat>)
    ensures r.Some? <==> 1 <= |s| && AllDigits(s)
  {
    if 1 <= |s| && AllDigits(s) then Some(DigitsValue(s)) else None
  }

  /** `ParseNat` inverts `Decimal`. */
  lemma DecimalRoundTrip(n: nat)
    ensures ParseNat(Decimal(n)) == Some(n)
  {
    DecimalValue(n);
  }

  /** `s.padStart(width, c)`. */
  function PadStart(s: string, width: nat, c: char): (r: string)
    ensures |r| == if |s| < width then width else |s|
    ensures r[|r| - |s|..] == s
    ensures forall i :: 0 <= i < |r| - |s| ==> r[i] == c
  {
    if |s| < width then seq(width - |s|, _ => c) + s else s
  }

  /** `String(n).padStart(width, '0')`. */
  function ZeroPadded(n: nat, width: nat): (s: string)
    ensures AllDigits(s)
    ensures |s| >= width
    ensures 1 <= width && n < Pow10(width) ==> |s| == width
  {
    var r := PadStart(Decimal(n), width, '0');
    assert 1 <= width && n < Pow10(width) ==> |Decimal(n)| <= width by {
      if 1 <= width && n < Pow10(width) {
        DecimalLength(n, width);
      }
    }
    assert forall i :: 0 <= i < |r| ==> IsDigit(r[i]) by {
      forall i | 0 <= i < |r| ensures IsDigit(r[i]) {
        if i >= |r| - |Decimal(n)| {
          assert r[i] == r[|r| - |Decimal(n)|..][i - (|r| - |Decimal(n)|)];
        }
      }
    }
    r
  }

  /** A leading zero does not change a digit string's value. */
  lemma {:induction false} LeadingZero(s: string)
    requires AllDigits(s)
    ensures AllDigits("0" + s) && DigitsValue("0" + s) == DigitsValue(s)
    decreases |s|
  {
    if |s| > 0 {
      var z := "0" + s;
      assert z[..|z| - 1] == "0" + s[..|s| - 1];
      LeadingZero(s[..|s| - 1]);
    }
  }

  /** Any number of leading zeros does not change a digit string's value. */
  lemma {:induction false} LeadingZeros(k: nat, s: string)
    requires AllDigits(s)
    ensures AllDigits(seq(k, _ => '0') + s)
    ensures DigitsValue(seq(k, _ => '0') + s) == DigitsValue(s)
    decreases k
  {
    if k > 0 {
      var rest := seq(k - 1, _ => '0') + s;
      LeadingZeros(k - 1, s);
      assert seq(k, _ => '0') + s == "0" + rest;
      LeadingZero(rest);
    } else {
      assert seq(k, _ => '0') + s == s;
    }
  }

  /** The zero-padded numeral of `n` reads back as `n`. */
  lemma ZeroPaddedRoundTrip(n: nat, width: nat)
    ensures ParseNat(ZeroPadded(n, width)) == Some(n)
  {
    var d := Decimal(n);
    DecimalValue(n);
    if |d| < width {
      LeadingZeros(width - |d|, d);
    }
  }

  /** A digit string contains no non-digit character. */
  lemma DigitsExclude(s: string, c: char)
    requires AllDigits(s) && !IsDigit(c)
    ensures c !in s
  {
  }

  lemma DigitNotSign(s: string)
    requires 1 <= |s| && AllDigits(s)
    ensures !IsSign(s[0])
  {
  }

  lemma DigitNotSpace(c: char)
    requires IsDigit(c)
    ensures !IsSpace(c)
  {
  }

  predicate IsSign(c: char) {
    c == '-' || c == '+'
  }

  /** A decimal integer numeral: digits, with at most one leading sign. */
  predicate IsSignedNumeral(t: string) {
    if |t| > 0 && IsSign(t[0]) then 2 <= |t| && AllDigits(t[1..]) else 1 <= |t| && AllDigits(t)
  }

  /** The value of a decimal integer numeral, nothing for anything else. */
  function ParseInt(t: string): (r: Option<int>)
    ensures r.Some? <==> IsSignedNumeral(t)
    ensures r.Some? && r.value < 0 ==> t[0] == '-'
  {
    if |t| > 0 && IsSign(t[0]) then
      match ParseNat(t[1..])
      case Some(v) => Some(if t[0] == '-' then 0 - v else v as int)
      case None => None
    else
      match ParseNat(t)
      case Some(v) => Some(v)
      case None => None
  }

  /** `ParseInt` reads back a numeral with either sign or none. */
  lemma ParseIntRoundTrip(n: nat)
    ensures ParseInt(Decimal(n)) == Some(n)
    ensures ParseInt("-" + Decimal(n)) == Some(0 - n)
    ensures ParseInt("+" + Decimal(n)) == Some(n)
  {
    var d := Decimal(n);
    DecimalRoundTrip(n);
    assert ("-" + d)[1..] == d;
    assert ("+" + d)[1..] == d;
  }

  /** `Number(s)` for the inputs this model gives it: white space around the
      text is ignored, a blank string is `0`, a decimal integer numeral with an
      optional sign is its value, and anything else is `NaN` (`None`). */
  function JsNumber(s: string): (r: Option<int>)
    ensures IsBlank(s) ==> r == Some(0)
    ensures !IsBlank(s) ==> (r.Some? <==> IsSignedNumeral(Trim(s)))
    ensures r.Some? && r.value < 0 ==> '-' in s
  {
    var t := Trim(s);
    if t == "" then Some(0)
    else
      var r := ParseInt(t);
      assert r.Some? && r.value < 0 ==> t[0] in s by {
        if r.Some? && r.value < 0 {
          assert t[0] == s[LeadingSpaces(s)];
        }
      }
      r
  }

  /** `Number` of a signed numeral is its signed value. */
  lemma JsNumberOfSigned(n: nat)
    ensures JsNumber("-" + Decimal(n)) == Some(0 - n)
    ensures JsNumber("+" + Decimal(n)) == Some(n)
  {
    var d := Decimal(n);
    ParseIntRoundTrip(n);
    DigitNotSpace(d[|d| - 1]);
    TrimUnchanged("-" + d);
    TrimUnchanged("+" + d);
  }

  /** `Number(String(n).padStart(w, '0')) === n`. */
  lemma JsNumberOfPadded(n: nat, width: nat)
    ensures JsNumber(ZeroPadded(n, width)) == Some(n)
  {
    var s := ZeroPadded(n, width);
    ZeroPaddedRoundTrip(n, width);
    DigitNotSign(s);
    DigitNotSpace(s[0]);
    DigitNotSpace(s[|s| - 1]);
    TrimUnchanged(s);
  }

  /** `Number(String(n)) === n`. */
  lemma JsNumberOfDecimal(n: nat)
    ensures JsNumber(Decimal(n)) == Some(n)
  {
    var s := Decimal(n);
    DecimalRoundTrip(n);
    DigitNotSign(s);
    DigitNotSpace(s[0]);
    DigitNotSpace(s[|s| - 1]);
    TrimUnchanged(s);
  }
}

=== FILE: records.dfy ===
/** The CRM's three entities as the code actually uses them: a Lead (a
    prospective student), an Enquiry (a contact or visit, optionally linked
    to a Lead) and an Enrolment (a course registration).

    Status, priority, visit type and intake are free text: the handlers copy
    whatever a CSV row or a form holds, so the model keeps them as strings and
    names the values the code itself writes. Beyond the declared interfaces,
    the code also uses the enquiry status `visit`, the enquiry fields
    `visit_date` and `visit_type`, and the enrolment field `intake`. */
module Records {
  import opened Wrappers

  const LeadNew := "new"

  const EnquiryOpen := "open"
  const EnquiryVisit := "visit"
  const EnquiryClosed := "closed"

  const PriorityMedium := "medium"

  const VisitWalkin := "walkin"

  const EnrolmentPending := "pending"
  const PaymentPaid := "paid"

  const IntakeFebruary := "February"
  const IntakeMay := "May"
  const IntakeAugust := "August"
  const IntakeNovember := "November"

  datatype Lead = Lead(
    id: Option<nat>,
    name: string,
    email: Option<string>,
    phone: Option<string>,
    company: Option<string>,
    source: Option<string>,
    status: string,
    notes: Option<string>,
    createdAt: Option<string>)

  /** `lead` is the lead row the visits page reads as `v.lead`; `None` when the
      enquiry arrives without one. */
  datatype Enquiry = Enquiry(
    id: Option<nat>,
    leadId: Option<nat>,
    subject: string,
    message: Option<string>,
    status: string,
    priority: string,
    assignedTo: Option<string>,
    visitDate: Option<string>,
    visitType: Option<string>,
    createdAt: Option<string>,
    lead: Option<Lead>)

  /** `amount` is `None` when the submitted number was `NaN` (sent as `null`). */
  datatype Enrolment = Enrolment(
    id: Option<nat>,
    leadId: Option<nat>,
    courseName: string,
    courseDate: Option<string>,
    amount: Option<int>,
    status: string,
    paymentStatus: string,
    intake: Option<string>,
    notes: Option<string>,
    createdAt: Option<string>)

  /** The fields an update (`PUT /api/enquiries/<id>`) may carry; `None` means
      the key is absent from the JSON body, so the column is left alone. */
  datatype EnquiryPatch = EnquiryPatch(
    status: Option<string>,
    visitDate: Option<string>,
    visitType: Option<string>,
    message: Option<string>)

  /** The row an update leaves behind: patched columns take the new value,
      every other column keeps the old one. */
  function ApplyPatch(e: Enquiry, p: EnquiryPatch): (r: Enquiry)
    ensures r.status == p.status.GetOr(e.status)
    ensures r.visitDate == (if p.visitDate.Some? then p.visitDate else e.visitDate)
    ensures r.visitType == (if p.visitType.Some? then p.visitType else e.visitType)
    ensures r.message == (if p.message.Some? then p.message else e.message)
    ensures r.(status := e.status, visitDate := e.visitDate, visitType := e.visitType,
               message := e.message) == e
  {
    e.(status := p.status.GetOr(e.status),
       visitDate := if p.visitDate.Some? then p.visitDate else e.visitDate,
       visitType := if p.visitType.Some? then p.visitType else e.visitType,
       message := if p.message.Some? then p.message else e.message)
  }
}

=== FILE: seqs.dfy ===
/** `Array.prototype.filter` and the facts about it that the list pages and
    the report rely on. */
module Seqs {

  /** `s.filter(p)`: the elements of `s` satisfying `p`, in their original order. */
  function Filter<T>(s: seq<T>, p: T -> bool): (r: seq<T>)
    ensures |r| <= |s|
    ensures forall i :: 0 <= i < |r| ==> p(r[i])
    ensures forall i :: 0 <= i < |r| ==> r[i] in s
    ensures forall i :: 0 <= i < |s| && p(s[i]) ==> s[i] in r
    decreases |s|
  {
    if |s| == 0 then []
    else if p(s[0]) then [s[0]] + Filter(s[1..], p)
    else Filter(s[1..], p)
  }

  /** `s.map(f)`. */
  function Map<A, B>(s: seq<A>, f: A -> B): (r: seq<B>)
    ensures |r| == |s|
    ensures forall i :: 0 <= i < |s| ==> r[i] == f(s[i])
  {
    seq(|s|, i requires 0 <= i < |s| => f(s[i]))
  }

  /** Mapping a list with one more element in front. */
  lemma MapCons<A, B>(x: A, s: seq<A>, f: A -> B)
    ensures Map([x] + s, f) == [f(x)] + Map(s, f)
  {
    var a, b := Map([x] + s, f), [f(x)] + Map(s, f);
    forall i | 0 <= i < |a| ensures a[i] == b[i] {
      if i > 0 { assert ([x] + s)[i] == s[i - 1]; }
    }
  }

  /** The running result of a loop over the first `n` elements of `xs`,
      starting from `init`: element `i` (0-based) is combined by `f` along
      with its position `i`. */
  function FoldPrefix<S, X>(init: S, xs: seq<X>, f: (S, X, nat) -> S, n: nat): S
    requires n <= |xs|
    decreases n
  {
    if n == 0 then init else f(FoldPrefix(init, xs, f, n - 1), xs[n - 1], n - 1)
  }

  /** A property that holds of the start and that each step carries from
      position `i` to `i + 1` holds of every running result. */
  lemma {:induction false} FoldInvariant<S, X>(init: S, xs: seq<X>, f: (S, X, nat) -> S, inv: (S, nat) -> bool, n: nat)
    requires n <= |xs|
    requires inv(init, 0)
    requires forall acc: S, i: nat :: i < |xs| && inv(acc, i) ==> inv(f(acc, xs[i], i), i + 1)
    ensures inv(FoldPrefix(init, xs, f, n), n)
    decreases n
  {
    if n > 0 {
      FoldInvariant(init, xs, f, inv, n - 1);
    }
  }

  /** The loop over the elements from `i` up to `end`, continuing from the
      running result after the first `i`. */
  method FoldSlice<S, X>(init: S, xs: seq<X>, f: (S, X, nat) -> S, acc: S, i: nat, end: nat) returns (r: S)
    requires i <= end <= |xs| && acc == FoldPrefix(init, xs, f, i)
    ensures r == FoldPrefix(init, xs, f, end)
  {
    r := acc;
    var j := i;
    while j < end
      invariant i <= j <= end
      invariant r == FoldPrefix(init, xs, f, j)
    {
      r := f(r, xs[j], j);
      j := j + 1;
    }
  }

  /** `r` can be obtained from `s` by deleting elements, keeping the order of the rest. */
  ghost predicate IsSubsequence<T>(r: seq<T>, s: seq<T>)
    decreases |s|
  {
    if |r| == 0 then true
    else if |s| == 0 then false
    else (r[0] == s[0] && IsSubsequence(r[1..], s[1..])) || IsSubsequence(r, s[1..])
  }

  /** Filtering only deletes elements: the result is an order-preserving subsequence. */
  lemma {:induction false} FilterIsSubsequence<T>(s: seq<T>, p: T -> bool)
    ensures IsSubsequence(Filter(s, p), s)
    decreases |s|
  {
    if |s| > 0 {
      FilterIsSubsequence(s[1..], p);
      var r := Filter(s, p);
      if p(s[0]) {
        assert r[0] == s[0] && r[1..] == Filter(s[1..], p);
      } else {
        SkipHead(Filter(s[1..], p), s);
      }
    }
  }

  /** A subsequence of the tail is a subsequence of the whole. */
  lemma SkipHead<T>(r: seq<T>, s: seq<T>)
    requires |s| > 0 && IsSubsequence(r, s[1..])
    ensures IsSubsequence(r, s)
  {
  }

  /** Filtering keeps every copy of a matching element and no copy of any other. */
  lemma {:induction false} FilterMultiset<T>(s: seq<T>, p: T -> bool, x: T)
    ensures multiset(Filter(s, p))[x] == if p(x) then multiset(s)[x] else 0
    decreases |s|
  {
    if |s| > 0 {
      FilterMultiset(s[1..], p, x);
      assert s == [s[0]] + s[1..];
      assert multiset(s) == multiset([s[0]]) + multiset(s[1..]);
      if p(s[0]) {
        assert multiset(Filter(s, p)) == multiset([s[0]]) + multiset(Filter(s[1..], p));
      }
    }
  }

  /** `FilterMultiset` for every element at once. */
  lemma FilterCounts<T>(s: seq<T>, p: T -> bool)
    ensures forall x :: multiset(Filter(s, p))[x] == if p(x) then multiset(s)[x] else 0
  {
    forall x ensures multiset(Filter(s, p))[x] == if p(x) then multiset(s)[x] else 0 {
      FilterMultiset(s, p, x);
    }
  }

  /** A list whose elements all pass the test is returned unchanged. */
  lemma {:induction false} FilterKeepsAll<T>(s: seq<T>, p: T -> bool)
    requires forall i :: 0 <= i < |s| ==> p(s[i])
    ensures Filter(s, p) == s
    decreases |s|
  {
    if |s| > 0 {
      FilterKeepsAll(s[1..], p);
      assert s == [s[0]] + s[1..];
    }
  }

  /** A filter that no element passes keeps nothing. */
  lemma {:induction false} FilterKeepsNone<T>(s: seq<T>, p: T -> bool)
    requires forall i :: 0 <= i < |s| ==> !p(s[i])
    ensures Filter(s, p) == []
    decreases |s|
  {
    if |s| > 0 {
      FilterKeepsNone(s[1..], p);
    }
  }

  /** Filtering distributes over concatenation. */
  lemma {:induction false} FilterConcat<T>(a: seq<T>, b: seq<T>, p: T -> bool)
    ensures Filter(a + b, p) == Filter(a, p) + Filter(b, p)
    decreases |a|
  {
    if |a| > 0 {
      FilterConcat(a[1..], b, p);
      assert (a + b)[0] == a[0];
      assert (a + b)[1..] == a[1..] + b;
    } else {
      assert a + b == b;
    }
  }

  /** Every list is a subsequence of itself. */
  lemma {:induction false} SubsequenceReflexive<T>(s: seq<T>)
    ensures IsSubsequence(s, s)
    decreases |s|
  {
    if |s| > 0 {
      SubsequenceReflexive(s[1..]);
    }
  }

  /** A subsequence of a subsequence is a subsequence. */
  lemma {:induction false} SubsequenceTransitive<T>(a: seq<T>, b: seq<T>, c: seq<T>)
    requires IsSubsequence(a, b) && IsSubsequence(b, c)
    ensures IsSubsequence(a, c)
    decreases |c|, |b|
  {
    if |a| > 0 {
      if b[0] == c[0] && IsSubsequence(b[1..], c[1..]) {
        if a[0] == b[0] && IsSubsequence(a[1..], b[1..]) {
          SubsequenceTransitive(a[1..], b[1..], c[1..]);
        } else {
          SubsequenceTransitive(a, b[1..], c[1..]);
          SkipHead(a, c);
        }
      } else {
        SubsequenceTransitive(a, b, c[1..]);
        SkipHead(a, c);
      }
    }
  }

  /** The test that passes exactly the elements passing both `p` and `q`. */
  function Both<T>(p: T -> bool, q: T -> bool): T -> bool {
    (x: T) => p(x) && q(x)
  }

  /** `r` is `s` with the elements failing `p` deleted: an order-preserving
      subsequence holding every element that passes `p` exactly as many times
      as `s` does, and no other element. */
  ghost predicate Selects<T(!new)>(r: seq<T>, s: seq<T>, p: T -> bool) {
    && IsSubsequence(r, s)
    && forall x :: multiset(r)[x] == if p(x) then multiset(s)[x] else 0
  }

  /** Filtering selects the passing elements. */
  lemma FilterSelects<T(!new)>(s: seq<T>, p: T -> bool)
    ensures Selects(Filter(s, p), s, p)
  {
    FilterIsSubsequence(s, p);
    FilterCounts(s, p);
  }

  /** A list whose elements all pass the test selects itself. */
  lemma SelectsAll<T(!new)>(s: seq<T>, p: T -> bool)
    requires forall i :: 0 <= i < |s| ==> p(s[i])
    ensures Selects(s, s, p)
  {
    SubsequenceReflexive(s);
    forall x | !p(x) ensures multiset(s)[x] == 0 {
      assert x !in s;
    }
  }

  /** Selection depends only on which elements pass, not on how the test is written. */
  lemma SelectsSame<T(!new)>(r: seq<T>, s: seq<T>, p: T -> bool, q: T -> bool)
    requires Selects(r, s, p)
    requires forall x :: p(x) == q(x)
    ensures Selects(r, s, q)
  {
  }

  /** Selecting by `q` from a selection by `p` selects by both. */
  lemma SelectsThen<T(!new)>(m: seq<T>, s: seq<T>, r: seq<T>, p: T -> bool, q: T -> bool)
    requires Selects(m, s, p) && Selects(r, m, q)
    ensures Selects(r, s, Both(p, q))
  {
    SubsequenceTransitive(r, m, s);
  }

  /** A selection holds only passing elements, and every passing element of the source. */
  lemma SelectsMembers<T(!new)>(r: seq<T>, s: seq<T>, p: T -> bool)
    requires Selects(r, s, p)
    ensures forall i :: 0 <= i < |r| ==> p(r[i])
    ensures forall i :: 0 <= i < |s| && p(s[i]) ==> s[i] in r
  {
    forall i | 0 <= i < |r| ensures p(r[i]) {
      assert r[i] in multiset(r);
    }
    forall i | 0 <= i < |s| && p(s[i]) ensures s[i] in r {
      assert s[i] in multiset(s);
      assert s[i] in multiset(r);
    }
  }
}

=== FILE: storage.dfy ===
/** The database, abstracted: each table maps system-assigned ids to rows,
    and `next` is an id no row has yet. Whether a call to the database
    succeeds is not decided here; the operations that call it take the
    outcome as a parameter. */
module Storage {
  import opened Wrappers
  import opened Text
  import opened Records

  /** The server's environment: the database URL and the service-role key,
      where an empty value counts as unset. */
  datatype Env = Env(url: Option<string>, serviceKey: Option<string>)

  /** Both the database URL and the service key are set. */
  predicate Configured(env: Env) {
    Truthy(env.url) && Truthy(env.serviceKey)
  }

  datatype Table<R> = Table(rows: map<nat, R>, next: nat) {

    /** Every id in use is below `next`, so `next` is fresh. */
    ghost predicate Valid() {
      forall k :: k in rows ==> k < next
    }

    /** Inserting a row: it gets a fresh id and no existing row changes. */
    function Insert(r: R): (res: (Table<R>, nat))
      ensures res.0.rows == rows[res.1 := r]
      ensures Valid() ==> res.1 !in rows && res.0.Valid()
    {
      (Table(rows[next := r], next + 1), next)
    }

    /** The table after replacing the row with id `k` (present in the table). */
    function Put(k: nat, r: R): (t: Table<R>)
      requires k in rows
      ensures t.rows.Keys == rows.Keys && t.rows[k] == r
      ensures forall j :: j in rows && j != k ==> t.rows[j] == rows[j]
      ensures Valid() ==> t.Valid()
    {
      Table(rows[k := r], next)
    }
  }

  /** `t2` holds every row of `t` unchanged, and has handed out at least as many ids. */
  ghost predicate Extends<R>(t: Table<R>, t2: Table<R>) {
    && t.next <= t2.next
    && forall k :: k in t.rows ==> k in t2.rows && t2.rows[k] == t.rows[k]
  }

  lemma ExtendsTransitive<R>(a: Table<R>, b: Table<R>, c: Table<R>)
    requires Extends(a, b) && Extends(b, c)
    ensures Extends(a, c)
  {
  }

  /** A database error as the client library reports it. */
  datatype DbError = DbError(message: string, details: Option<string>, hint: Option<string>, code: Option<string>)

  /** Ids are fresh per table, as with one identity column per table. */
  datatype Store = Store(
    leads: Table<Lead>,
    enquiries: Table<Enquiry>,
    enrolments: Table<Enrolment>)
  {
    ghost predicate Valid() {
      leads.Valid() && enquiries.Valid() && enrolments.Valid()
    }
  }

  /** `PUT /api/enquiries/<id>` with a patch: the update succeeds only when the
      database call succeeds (`ok`) and a row with that id exists; otherwise
      nothing changes. */
  function UpdateEnquiry(s: Store, id: Option<nat>, p: EnquiryPatch, ok: bool): (r: Option<Store>)
    ensures r.Some? <==> ok && id.Some? && id.value in s.enquiries.rows
    ensures r.Some? ==> r.value.leads == s.leads && r.value.enrolments == s.enrolments
    ensures r.Some? ==> r.value.enquiries.rows.Keys == s.enquiries.rows.Keys
    ensures r.Some? ==> r.value.enquiries.rows[id.value] == ApplyPatch(s.enquiries.rows[id.value], p)
    ensures r.Some? ==> forall k :: k in s.enquiries.rows && k != id.value ==>
      r.value.enquiries.rows[k] == s.enquiries.rows[k]
    ensures r.Some? && s.Valid() ==> r.value.Valid()
  {
    if ok && id.Some? && id.value in s.enquiries.rows then
      var k := id.value;
      Some(s.(enquiries := s.enquiries.Put(k, ApplyPatch(s.enquiries.rows[k], p))))
    else None
  }
}

=== FILE: text.dfy ===
/** The JavaScript string operations the CRM relies on, over `seq<char>`:
    `trim`, `||` on optional strings, `toLowerCase`, `includes`,
    `startsWith`, `split` on one character and `join`. */
module Text {
  import opened Wrappers

  /** ECMAScript WhiteSpace and LineTerminator code points: what
      `String.prototype.trim` removes from both ends. */
  predicate IsSpace(c: char) {
    || c == ' ' || c == '\t' || c == '\n' || c == '\r' || c == '\U{B}' || c == '\U{C}'
    || c == '\U{A0}' || c == '\U{1680}' || ('\U{2000}' <= c <= '\U{200A}')
    || c == '\U{2028}' || c == '\U{2029}' || c == '\U{202F}' || c == '\U{205F}'
    || c == '\U{3000}' || c == '\U{FEFF}'
  }

  predicate IsBlank(s: string) {
    forall i :: 0 <= i < |s| ==> IsSpace(s[i])
  }

  /** A space followed by blank text, or blank text followed by a space, is blank. */
  lemma BlankCons(c: char, s: string)
    requires IsSpace(c) && IsBlank(s)
    ensures IsBlank([c] + s) && IsBlank(s + [c])
  {
    assert forall i :: 0 < i <= |s| ==> ([c] + s)[i] == s[i - 1];
    assert forall i :: 0 <= i < |s| ==> (s + [c])[i] == s[i];
  }

  /** Number of white-space characters at the start of `s`. */
  function LeadingSpaces(s: string): (n: nat)
    ensures n <= |s|
    ensures IsBlank(s[..n])
    ensures n < |s| ==> !IsSpace(s[n])
  {
    if |s| == 0 || !IsSpace(s[0]) then 0
    else
      var m := LeadingSpaces(s[1..]);
      assert s[..1 + m] == [s[0]] + s[1..][..m];
      BlankCons(s[0], s[1..][..m]);
      1 + m
  }

  /** Number of white-space characters at the end of `s`. */
  function TrailingSpaces(s: string): (n: nat)
    ensures n <= |s|
    ensures IsBlank(s[|s| - n..])
    ensures n < |s| ==> !IsSpace(s[|s| - 1 - n])
  {
    if |s| == 0 || !IsSpace(s[|s| - 1]) then 0
    else
      var init := s[..|s| - 1];
      var m := TrailingSpaces(init);
      assert s[|s| - 1 - m..] == init[|init| - m..] + [s[|s| - 1]];
      assert m < |init| ==> s[|s| - 1 - (1 + m)] == init[|init| - 1 - m];
      BlankCons(s[|s| - 1], init[|init| - m..]);
      1 + m
  }

  /** The trailing spaces of the rest after the leading ones, seen in `s`. */
  lemma TrailingInSuffix(s: string, a: nat, b: nat)
    requires a <= |s| && b <= |s| - a
    requires IsBlank(s[a..][|s| - a - b..])
    requires b < |s| - a ==> !IsSpace(s[a..][|s| - a - 1 - b])
    ensures IsBlank(s[|s| - b..])
    ensures b < |s| - a ==> !IsSpace(s[|s| - 1 - b])
  {
    assert s[a..][|s| - a - b..] == s[|s| - b..];
  }

  /** Cutting blank text off both ends at non-spaces leaves nothing exactly
      when all of `s` is blank. */
  lemma TrimShape(s: string, a: nat, hi: nat)
    requires a <= hi <= |s|
    requires IsBlank(s[..a]) && IsBlank(s[hi..])
    requires a < |s| ==> !IsSpace(s[a])
    requires a < hi ==> !IsSpace(s[hi - 1])
    ensures a == hi <==> IsBlank(s)
  {
    if a == hi && a < |s| {
      assert false;
    }
    if a == hi {
      forall i | 0 <= i < |s| ensures IsSpace(s[i]) {
        assert s[..a][i] == s[i];
      }
    }
  }

  /** `s.trim()`: `s` without its leading and trailing white space. */
  function Trim(s: string): (t: string)
    ensures LeadingSpaces(s) + |t| <= |s|
    ensures t == s[LeadingSpaces(s)..LeadingSpaces(s) + |t|]
    ensures IsBlank(s[..LeadingSpaces(s)]) && IsBlank(s[LeadingSpaces(s) + |t|..])
    ensures t == "" <==> IsBlank(s)
    ensures t != "" ==> !IsSpace(t[0]) && !IsSpace(t[|t| - 1])
  {
    var a := LeadingSpaces(s);
    var b := TrailingSpaces(s[a..]);
    TrailingInSuffix(s, a, b);
    TrimShape(s, a, |s| - b);
    s[a..|s| - b]
  }

  /** A string that starts and ends with a non-space is its own trim. */
  lemma TrimUnchanged(s: string)
    requires s == "" || (!IsSpace(s[0]) && !IsSpace(s[|s| - 1]))
    ensures Trim(s) == s
  {
  }

  /** Trimming twice is trimming once. */
  lemma TrimIdempotent(s: string)
    ensures Trim(Trim(s)) == Trim(s)
  {
    TrimUnchanged(Trim(s));
  }

  /** JavaScript truthiness of an optional string: present and not empty. */
  predicate Truthy(o: Option<string>) {
    o.Some? && o.value != ""
  }

  /** `o || d` for an optional string `o`. */
  function OrElse(o: Option<string>, d: string): (r: string)
    ensures r != "" <==> Truthy(o) || d != ""
    ensures r == d || Some(r) == o
  {
    if Truthy(o) then o.value else d
  }

  /** `o?.trim() || null`: the trimmed value, or nothing when it is absent or blank. */
  function TrimOrNull(o: Option<string>): (r: Option<string>)
    ensures r.None? <==> o.None? || IsBlank(o.value)
    ensures r.Some? ==> r.value != "" && r.value == Trim(o.value)
  {
    if o.None? then None
    else
      var t := Trim(o.value);
      if t == "" then None else Some(t)
  }

  /** Normalising an already normalised optional value changes nothing. */
  lemma TrimOrNullIdempotent(o: Option<string>)
    ensures TrimOrNull(TrimOrNull(o)) == TrimOrNull(o)
  {
    if o.Some? && !IsBlank(o.value) {
      TrimIdempotent(o.value);
    }
  }

  /** `toLowerCase` on one character, for the ASCII letters. */
  function LowerChar(c: char): char {
    if 'A' <= c <= 'Z' then (c as int + 32) as char else c
  }

  /** `s.toLowerCase()`, for the ASCII letters. */
  function ToLower(s: string): (r: string)
    ensures |r| == |s|
    ensures forall i :: 0 <= i < |s| ==> r[i] == LowerChar(s[i])
  {
    seq(|s|, i requires 0 <= i < |s| => LowerChar(s[i]))
  }

  /** Lower-casing leaves no upper-case ASCII letter behind, so a second pass changes nothing. */
  lemma ToLowerIdempotent(s: string)
    ensures ToLower(ToLower(s)) == ToLower(s)
  {
  }

  /** Lower-casing turns no character into white space and none out of it. */
  lemma BlankToLower(s: string)
    ensures IsBlank(ToLower(s)) <==> IsBlank(s)
  {
    assert forall i :: 0 <= i < |s| ==> (IsSpace(ToLower(s)[i]) <==> IsSpace(s[i]));
  }

  /** Any piece of a lower-cased string is already lower-case. */
  lemma LowerSliceFixed(s: string, a: nat, b: nat)
    requires a <= b <= |s|
    ensures ToLower(ToLower(s)[a..b]) == ToLower(s)[a..b]
  {
  }

  /** `s.startsWith(p)`. */
  predicate StartsWith(s: string, p: string) {
    |p| <= |s| && s[..|p|] == p
  }

  /** `p` occurs in `s` at index `i`. */
  ghost predicate OccursAt(s: string, p: string, i: int) {
    0 <= i && i + |p| <= |s| && s[i..i + |p|] == p
  }

  /** `s.includes(p)`. */
  function Contains(s: string, p: string): (r: bool)
    ensures r ==> |p| <= |s|
    decreases |s|
  {
    StartsWith(s, p) || (|s| > 0 && Contains(s[1..], p))
  }

  /** `Contains` holds exactly when `p` occurs somewhere in `s`. */
  lemma {:induction false} ContainsIff(s: string, p: string)
    ensures Contains(s, p) <==> exists i :: OccursAt(s, p, i)
    decreases |s|
  {
    if StartsWith(s, p) {
      assert OccursAt(s, p, 0);
    } else if |s| > 0 {
      ContainsIff(s[1..], p);
      if Contains(s[1..], p) {
        var i :| OccursAt(s[1..], p, i);
        assert s[1..][i..i + |p|] == s[i + 1..i + 1 + |p|];
        assert OccursAt(s, p, i + 1);
      } else {
        forall i | OccursAt(s, p, i) ensures false {
          assert s[1..][i - 1..i - 1 + |p|] == s[i..i + |p|];
          assert OccursAt(s[1..], p, i - 1);
        }
      }
    }
  }

  /** The index of the first `c` in `s`, if any (`indexOf`). */
  function IndexOf(s: string, c: char): (r: Option<nat>)
    ensures r.Some? ==> r.value < |s| && s[r.value] == c && c !in s[..r.value]
    ensures r.None? <==> c !in s
  {
    if |s| == 0 then None
    else if s[0] == c then Some(0)
    else
      match IndexOf(s[1..], c)
      case None => None
      case Some(k) =>
        assert s[..k + 1] == [s[0]] + s[1..][..k];
        Some(k + 1)
  }

  /** `s.split(c)` for a one-character separator: the maximal pieces of `s`
      between occurrences of `c`; there is always at least one piece. */
  function Split(s: string, c: char): (parts: seq<string>)
    ensures |parts| >= 1
    ensures forall i :: 0 <= i < |parts| ==> c !in parts[i]
    decreases |s|
  {
    match IndexOf(s, c)
    case None => [s]
    case Some(k) => [s[..k]] + Split(s[k + 1..], c)
  }

  /** `parts.join(c)`; an empty list joins to the empty string. */
  function Join(parts: seq<string>, c: char): string {
    if |parts| == 0 then ""
    else if |parts| == 1 then parts[0]
    else parts[0] + [c] + Join(parts[1..], c)
  }

  /** Joining a piece in front of at least one more piece. */
  lemma JoinCons(p: string, rest: seq<string>, c: char)
    requires |rest| >= 1
    ensures Join([p] + rest, c) == p + [c] + Join(rest, c)
  {
    assert ([p] + rest)[1..] == rest;
  }

  /** Joining the pieces of a split restores the original string. */
  lemma {:induction false} JoinSplit(s: string, c: char)
    ensures Join(Split(s, c), c) == s
    decreases |s|
  {
    match IndexOf(s, c)
    case None =>
    case Some(k) =>
      var rest := Split(s[k + 1..], c);
      assert Split(s, c) == [s[..k]] + rest;
      JoinCons(s[..k], rest, c);
      JoinSplit(s[k + 1..], c);
      assert s == s[..k] + [c] + s[k + 1..];
  }

  /** The first `c` of `p + [c] + r` is the one after `p` when `p` has none. */
  lemma IndexOfAfter(p: string, c: char, r: string)
    requires c !in p
    ensures IndexOf(p + [c] + r, c) == Some(|p|)
  {
    var s := p + [c] + r;
    assert s[|p|] == c;
    assert s[..|p|] == p;
  }

  /** Splitting `p + [c] + r` gives `p` followed by the pieces of `r`. */
  lemma SplitAfterFirst(p: string, c: char, r: string)
    requires c !in p
    ensures Split(p + [c] + r, c) == [p] + Split(r, c)
  {
    var s := p + [c] + r;
    IndexOfAfter(p, c, r);
    assert s[..|p|] == p;
    assert s[|p| + 1..] == r;
  }

  /** Splitting two separator-free pieces joined by the separator. */
  lemma SplitTwo(p: string, c: char, r: string)
    requires c !in p && c !in r
    ensures Split(p + [c] + r, c) == [p, r]
  {
    SplitAfterFirst(p, c, r);
    assert Split(r, c) == [r];
  }

  /** Splitting a join of separator-free pieces gives the pieces back. */
  lemma {:induction false} SplitJoin(parts: seq<string>, c: char)
    requires |parts| >= 1
    requires forall i :: 0 <= i < |parts| ==> c !in parts[i]
    ensures Split(Join(parts, c), c) == parts
  {
    if |parts| == 1 {
      assert IndexOf(parts[0], c) == None;
    } else {
      var rest := Join(parts[1..], c);
      SplitAfterFirst(parts[0], c, rest);
      SplitJoin(parts[1..], c);
      assert parts == [parts[0]] + parts[1..];
    }
  }

  /** `const [head, ...tail] = s.split(c); tail.join(c)` is everything after
      the first `c`, or the empty string when there is none. */
  lemma AfterFirst(s: string, c: char)
    ensures IndexOf(s, c).None? ==> Join(Split(s, c)[1..], c) == ""
    ensures IndexOf(s, c).Some? ==>
      Join(Split(s, c)[1..], c) == s[IndexOf(s, c).value + 1..]
    ensures IndexOf(s, c).None? ==> Split(s, c)[0] == s
    ensures IndexOf(s, c).Some? ==> Split(s, c)[0] == s[..IndexOf(s, c).value]
  {
    match IndexOf(s, c)
    case None =>
    case Some(k) =>
      assert Split(s, c)[1..] == Split(s[k + 1..], c);
      JoinSplit(s[k + 1..], c);
  }
}

=== FILE: visit_modal.dfy ===
/** Logging a visit against an existing enquiry: the visit dialog moves the
    enquiry to the `visit` status and records the date, the kind of visit and
    the notes, in one update. */
module VisitModal {
  import opened Wrappers
  import opened Text
  import opened Dates
  import opened Records
  import opened Storage
  import Eves

  /** The dialog's fields. */
  datatype VisitForm = VisitForm(visitDate: string, visitType: string, notes: string)

  /** The dialog opens on today's date, a walk-in, and the enquiry's message
      as the notes (`message || ''`). */
  function InitialForm(e: Enquiry, now: Instant): (f: VisitForm)
    requires ValidDay(now.day)
    ensures f.visitDate == IsoDate(now.day)
    ensures f.visitType == VisitWalkin
    ensures f.notes == (if e.message.Some? then e.message.value else "")
  {
    VisitForm(Today(now), VisitWalkin, OrElse(e.message, ""))
  }

  /** The update body: all four keys are always sent, so whatever row it is
      applied to ends up a visit with exactly the form's date, kind and notes,
      and applying it again changes nothing. */
  function VisitPatch(f: VisitForm): (p: EnquiryPatch)
    ensures forall e :: ApplyPatch(e, p).status == EnquiryVisit
    ensures forall e :: ApplyPatch(e, p).visitDate == Some(f.visitDate) && ApplyPatch(e, p).visitType == Some(f.visitType)
    ensures forall e :: ApplyPatch(e, p).message == Some(f.notes)
    ensures forall e :: ApplyPatch(ApplyPatch(e, p), p) == ApplyPatch(e, p)
  {
    EnquiryPatch(Some(EnquiryVisit), Some(f.visitDate), Some(f.visitType), Some(f.notes))
  }

  /** The submit handler: `PUT /api/enquiries/<id>` with the visit fields,
      where `ok` is whether the database call succeeds. `None` is the error
      alert, and then nothing changed. On success exactly the enquiry's
      status, visit date, visit type and message are replaced. */
  function LogVisit(s: Store, e: Enquiry, f: VisitForm, ok: bool): (r: Option<Store>)
    ensures r.Some? <==> ok && e.id.Some? && e.id.value in s.enquiries.rows
    ensures r.Some? ==> r.value.leads == s.leads && r.value.enrolments == s.enrolments
    ensures r.Some? ==> r.value.enquiries.next == s.enquiries.next
    ensures r.Some? ==> r.value.enquiries.rows == s.enquiries.rows[e.id.value :=
      s.enquiries.rows[e.id.value].(status := EnquiryVisit, visitDate := Some(f.visitDate),
                                    visitType := Some(f.visitType), message := Some(f.notes))]
    ensures r.Some? && s.Valid() ==> r.value.Valid()
  {
    UpdateEnquiry(s, e.id, VisitPatch(f), ok)
  }

  /** Submitting the same visit again leaves the store as the first submission left it. */
  lemma LogVisitIdempotent(s: Store, e: Enquiry, f: VisitForm)
    requires LogVisit(s, e, f, true).Some?
    ensures LogVisit(LogVisit(s, e, f, true).value, e, f, true) == LogVisit(s, e, f, true)
  {
    var s1 := LogVisit(s, e, f, true).value;
    var s2 := LogVisit(s1, e, f, true).value;
    assert s2.enquiries.rows == s1.enquiries.rows;
  }

  /** A visit logged on the dialog's default date counts among the visits of
      the current month in the report. */
  lemma VisitTodayInCurrentMonth(s: Store, e: Enquiry, f: VisitForm, now: Instant)
    requires ValidDay(now.day) && f.visitDate == Today(now)
    requires LogVisit(s, e, f, true).Some?
    ensures var row := LogVisit(s, e, f, true).value.enquiries.rows[e.id.value];
      row.status == EnquiryVisit && Eves.IsInMonth(row.visitDate, Eves.CurrentMonthValue(now))
  {
    ParseIsoDate(now.day);
    Eves.IsInMonthOfMonthValue(Some(f.visitDate), now.day.year, now.day.month);
  }
}

=== FILE: visits.dfy ===
/** The visits page: the enquiries in the `visit` status, narrowed by visit
    type and by a free-text search over the lead's name and phone and the
    subject. */
module Visits {
  import opened Wrappers
  import opened Text
  import opened Records
  import opened Seqs

  /** The type filter that lets every visit through. */
  const TypeAll := "all"

  function IsVisit(): Enquiry -> bool {
    (e: Enquiry) => e.status == EnquiryVisit
  }

  /** `fetchVisits`: the enquiries whose status is `visit`, in their order. */
  function VisitsOf(data: seq<Enquiry>): (r: seq<Enquiry>)
    ensures Selects(r, data, IsVisit())
  {
    FilterSelects(data, IsVisit());
    Filter(data, IsVisit())
  }

  function OfType(visitType: string): Enquiry -> bool {
    (v: Enquiry) => v.visitType == Some(visitType)
  }

  /** `s?.toLowerCase() || ''`. */
  function LowerOrEmpty(o: Option<string>): string {
    if o.Some? then ToLower(o.value) else ""
  }

  function LeadName(v: Enquiry): Option<string> {
    if v.lead.Some? then Some(v.lead.value.name) else None
  }

  function LeadPhone(v: Enquiry): Option<string> {
    if v.lead.Some? then v.lead.value.phone else None
  }

  /** The search test for an already trimmed and lower-cased query: a
      substring of the lower-cased lead name, lead phone or subject, a
      missing field counting as the empty string. */
  predicate MatchesQuery(v: Enquiry, query: string)
    ensures query == "" ==> MatchesQuery(v, query)
  {
    || Contains(LowerOrEmpty(LeadName(v)), query)
    || Contains(LowerOrEmpty(LeadPhone(v)), query)
    || Contains(ToLower(v.subject), query)
  }

  function Matching(query: string): Enquiry -> bool {
    (v: Enquiry) => MatchesQuery(v, query)
  }

  /** `searchQuery.toLowerCase().trim()`. */
  function NormalQuery(searchQuery: string): string {
    Trim(ToLower(searchQuery))
  }

  /** The normalised query is empty exactly for a blank query. */
  lemma NormalQueryEmpty(searchQuery: string)
    ensures NormalQuery(searchQuery) == "" <==> IsBlank(searchQuery)
  {
    BlankToLower(searchQuery);
  }

  /** A normalised query is its own normal form. */
  lemma NormalQueryIdempotent(searchQuery: string)
    ensures NormalQuery(NormalQuery(searchQuery)) == NormalQuery(searchQuery)
  {
    var l := ToLower(searchQuery);
    var t := Trim(l);
    assert ToLower(t) == t by {
      LowerSliceFixed(searchQuery, LeadingSpaces(l), LeadingSpaces(l) + |t|);
    }
    TrimIdempotent(l);
  }

  /** Whether a visit passes the type filter: every visit passes `all`. */
  predicate TypeOk(v: Enquiry, filterType: string) {
    filterType != TypeAll ==> v.visitType == Some(filterType)
  }

  /** Whether a visit passes the search: every visit passes a blank query. */
  predicate SearchOk(v: Enquiry, searchQuery: string) {
    !IsBlank(searchQuery) ==> MatchesQuery(v, NormalQuery(searchQuery))
  }

  /** Whether a visit passes both filters of the page. */
  predicate Passes(v: Enquiry, searchQuery: string, filterType: string) {
    TypeOk(v, filterType) && SearchOk(v, searchQuery)
  }

  function TypeTest(filterType: string): Enquiry -> bool {
    (v: Enquiry) => TypeOk(v, filterType)
  }

  function SearchTest(searchQuery: string): Enquiry -> bool {
    (v: Enquiry) => SearchOk(v, searchQuery)
  }

  function PassTest(searchQuery: string, filterType: string): Enquiry -> bool {
    (v: Enquiry) => Passes(v, searchQuery, filterType)
  }

  /** The type filter of `filteredVisits`: skipped for `all`. */
  function ByType(visits: seq<Enquiry>, filterType: string): (r: seq<Enquiry>)
    ensures Selects(r, visits, TypeTest(filterType))
  {
    if filterType != TypeAll then
      FilterSelects(visits, OfType(filterType));
      SelectsSame(Filter(visits, OfType(filterType)), visits, OfType(filterType), TypeTest(filterType));
      Filter(visits, OfType(filterType))
    else
      SelectsAll(visits, TypeTest(filterType));
      visits
  }

  /** The search filter of `filteredVisits`: skipped for a blank query. */
  function BySearch(visits: seq<Enquiry>, searchQuery: string): (r: seq<Enquiry>)
    ensures Selects(r, visits, SearchTest(searchQuery))
  {
    if Trim(searchQuery) != "" then
      var test := Matching(NormalQuery(searchQuery));
      FilterSelects(visits, test);
      SelectsSame(Filter(visits, test), visits, test, SearchTest(searchQuery));
      Filter(visits, test)
    else
      SelectsAll(visits, SearchTest(searchQuery));
      visits
  }

  /** `filteredVisits`: the visits passing both filters, in their order. */
  function FilteredVisits(visits: seq<Enquiry>, searchQuery: string, filterType: string): (r: seq<Enquiry>)
    ensures Selects(r, visits, PassTest(searchQuery, filterType))
  {
    var byType := ByType(visits, filterType);
    var r := BySearch(byType, searchQuery);
    SelectsThen(byType, visits, r, TypeTest(filterType), SearchTest(searchQuery));
    SelectsSame(r, visits, Both(TypeTest(filterType), SearchTest(searchQuery)), PassTest(searchQuery, filterType));
    r
  }

  /** With a blank query and the `all` type, every visit is shown, in order. */
  lemma NoFilterShowsAll(visits: seq<Enquiry>, searchQuery: string)
    requires IsBlank(searchQuery)
    ensures FilteredVisits(visits, searchQuery, TypeAll) == visits
  {
  }

  /** Filtering the shown list again with the same query and type shows the same list. */
  lemma FilteredVisitsIdempotent(visits: seq<Enquiry>, searchQuery: string, filterType: string)
    ensures var once := FilteredVisits(visits, searchQuery, filterType);
      FilteredVisits(once, searchQuery, filterType) == once
  {
    var once := FilteredVisits(visits, searchQuery, filterType);
    SelectsMembers(once, visits, PassTest(searchQuery, filterType));
    if filterType != TypeAll {
      FilterKeepsAll(once, OfType(filterType));
    }
    if Trim(searchQuery) != "" {
      FilterKeepsAll(ByType(once, filterType), Matching(NormalQuery(searchQuery)));
    }
  }
}

=== FILE: webhook.dfy ===
/** The WhatsApp webhook: the `GET` verification handshake, and the `POST`
    handler that turns the first incoming message of a Cloud API payload
    into an enquiry. */
module Webhook {
  import opened Wrappers
  import opened Text
  import opened Numerals
  import opened Dates
  import opened Records
  import opened Storage

  /** The token used when `WHATSAPP_VERIFY_TOKEN` is unset or empty. */
  const DefaultVerifyToken := "CHANGE_ME_VERIFY_TOKEN"
  const SubscribeMode := "subscribe"
  const FallbackSubject := "WhatsApp Enquiry"
  const SubjectPrefix := "WhatsApp from "
  const FallbackPrefix := "WhatsApp message received at "

  /** `WHATSAPP_VERIFY_TOKEN || 'CHANGE_ME_VERIFY_TOKEN'`. */
  function VerifyToken(env: Option<string>): (t: string)
    ensures t != ""
    ensures Truthy(env) ==> t == env.value
  {
    OrElse(env, DefaultVerifyToken)
  }

  datatype VerifyResponse = Challenge(challenge: string) | Forbidden {
    /** 200 exactly when the challenge is echoed, 403 otherwise. */
    function Status(): (s: nat)
      ensures s == 200 <==> Challenge?
      ensures s == 200 || s == 403
    {
      if Challenge? then 200 else 403
    }
  }

  /** `GET`: the query's `hub.mode`, `hub.verify_token` and `hub.challenge`
      (`None` when absent). The challenge is echoed exactly when the mode is
      `subscribe`, the token is the configured one and the challenge is not
      empty. */
  function Verify(env: Option<string>, mode: Option<string>, token: Option<string>, challenge: Option<string>): (r: VerifyResponse)
    ensures r.Status() == 200 <==>
      mode == Some(SubscribeMode) && token == Some(VerifyToken(env)) && challenge.Some? && challenge.value != ""
    ensures r.Challenge? ==> r.challenge == challenge.value
  {
    if mode == Some(SubscribeMode) && token == Some(VerifyToken(env)) && Truthy(challenge)
    then Challenge(challenge.value)
    else Forbidden
  }

  /** With no token configured, the placeholder token is what passes, and an
      empty token never does. */
  lemma UnconfiguredTokenIsPlaceholder(env: Option<string>, challenge: string)
    requires !Truthy(env) && challenge != ""
    ensures Verify(env, Some(SubscribeMode), Some(DefaultVerifyToken), Some(challenge)) == Challenge(challenge)
    ensures forall mode, c :: Verify(env, mode, Some(""), c) == Forbidden
  {
  }

  /** A parsed JSON value (numbers as integers). */
  datatype Json =
    | JNull
    | JBool(b: bool)
    | JNum(n: int)
    | JStr(s: string)
    | JArr(items: seq<Json>)
    | JObj(fields: map<string, Json>)

  /** A JavaScript value in this handler: `undefined` (`None`) or a JSON value. */
  type Value = Option<Json>

  /** JavaScript truthiness: `undefined`, `null`, `false`, `0` and `''` are
      falsy; every array and object, even an empty one, is truthy. */
  predicate JsTruthy(v: Value): (b: bool)
    ensures b ==> v.Some? && v.value != JNull
    ensures v.Some? && (v.value.JArr? || v.value.JObj?) ==> b
  {
    match v
    case None => false
    case Some(JNull) => false
    case Some(JBool(b)) => b
    case Some(JNum(n)) => n != 0
    case Some(JStr(s)) => s != ""
    case Some(_) => true
  }

  /** `j.key` on a value that is not `null`: an object's own field, else `undefined`. */
  function Get(j: Json, key: string): (r: Value)
    requires j != JNull
    ensures r.Some? <==> j.JObj? && key in j.fields
    ensures r.Some? ==> r.value == j.fields[key]
  {
    if j.JObj? && key in j.fields then Some(j.fields[key]) else None
  }

  /** `Array.isArray(v) && v[0]`: a value that is not an array gives `false`. */
  function First(v: Value): (r: Value)
    ensures !(v.Some? && v.value.JArr?) ==> !JsTruthy(r)
    ensures JsTruthy(r) ==> v.Some? && v.value.JArr? && |v.value.items| > 0 && r == Some(v.value.items[0])
  {
    if v.Some? && v.value.JArr? then
      if |v.value.items| > 0 then Some(v.value.items[0]) else None
    else Some(JBool(false))
  }

  /** `v && v.key`, with `v.key` read only when `v` is truthy. */
  function AndGet(v: Value, key: string): (r: Value)
    ensures !JsTruthy(v) ==> r == v
    ensures JsTruthy(r) ==> JsTruthy(v) && v.value.JObj? && key in v.value.fields && r == Some(v.value.fields[key])
  {
    if JsTruthy(v) then Get(v.value, key) else v
  }

  /** `v && Array.isArray(v.key) && v.key[0]`. */
  function AndFirst(v: Value, key: string): (r: Value)
    ensures !JsTruthy(v) ==> r == v
    ensures JsTruthy(r) ==>
      && JsTruthy(v) && v.value.JObj? && key in v.value.fields
      && v.value.fields[key].JArr? && |v.value.fields[key].items| > 0
      && r == Some(v.value.fields[key].items[0])
  {
    if JsTruthy(v) then First(Get(v.value, key)) else v
  }

  /** `entry[0].changes[0].value.messages[0]`, read defensively; falsy when
      any step is missing. `body` is not `null`. */
  function FirstMessage(body: Json): (r: Value)
    requires body != JNull
    ensures JsTruthy(r) ==>
      var entries := Get(body, "entry");
      && entries.Some? && entries.value.JArr? && |entries.value.items| > 0
      && var entry := entries.value.items[0];
      && entry.JObj? && "changes" in entry.fields
      && entry.fields["changes"].JArr? && |entry.fields["changes"].items| > 0
  {
    var entry := First(Get(body, "entry"));
    var changes := AndFirst(entry, "changes");
    var value := AndGet(changes, "value");
    AndFirst(value, "messages")
  }

  /** A payload of the documented shape. */
  function Payload(entries: seq<Json>): Json {
    JObj(map["entry" := JArr(entries)])
  }

  function Entry(changes: seq<Json>): Json {
    JObj(map["changes" := JArr(changes)])
  }

  function Change(messages: seq<Json>): Json {
    JObj(map["value" := JObj(map["messages" := JArr(messages)])])
  }

  /** Only the first message of the first change of the first entry counts:
      whatever follows it, in any of the three lists, is never read. */
  lemma FirstMessageOfPayload(m: Json, ms: seq<Json>, cs: seq<Json>, es: seq<Json>)
    requires m.JObj?
    ensures FirstMessage(Payload([Entry([Change([m] + ms)] + cs)] + es)) == Some(m)
  {
  }

  /** A payload without messages, such as a status callback, has no first message. */
  lemma NoMessagesIgnored(cs: seq<Json>, es: seq<Json>)
    ensures !JsTruthy(FirstMessage(Payload([Entry([Change([])] + cs)] + es)))
    ensures !JsTruthy(FirstMessage(Payload([])))
  {
  }

  /** A number in JavaScript's `String(n)` form, for integers. */
  function IntText(n: int): string {
    if n >= 0 then Decimal(n) else "-" + Decimal(-n)
  }

  /** `${v}` for a JSON value: strings as they are, arrays joined with `,`
      (a `null` element as the empty string), objects as `[object Object]`. */
  function Display(j: Json): (r: string)
    ensures j.JStr? ==> r == j.s
    ensures j.JArr? && |j.items| == 0 ==> r == ""
    ensures j.JArr? && |j.items| == 1 && j.items[0].JStr? ==> r == j.items[0].s
    decreases j
  {
    match j
    case JNull => "null"
    case JBool(b) => if b then "true" else "false"
    case JNum(n) => IntText(n)
    case JStr(s) => s
    case JArr(items) =>
      Join(seq(|items|, i requires 0 <= i < |items| => if items[i] == JNull then "" else Display(items[i])), ',')
    case JObj(_) => "[object Object]"
  }

  /** `(m.text && m.text.body) || (m.type === 'text' ? m.body : undefined)`. */
  function TextBody(m: Json): (r: Value)
    requires m != JNull
    ensures JsTruthy(r) || r.None? || Get(m, "type") == Some(JStr("text"))
    ensures var text := Get(m, "text");
      text.Some? && text.value.JObj? && "body" in text.value.fields && JsTruthy(Some(text.value.fields["body"]))
      ==> r == Some(text.value.fields["body"])
    ensures !JsTruthy(Get(m, "text")) && Get(m, "type") != Some(JStr("text")) ==> r.None?
  {
    var fromText := AndGet(Get(m, "text"), "body");
    if JsTruthy(fromText) then fromText
    else if Get(m, "type") == Some(JStr("text")) then Get(m, "body")
    else None
  }

  /** The enquiry subject: `WhatsApp from <from>` for a sender, else `WhatsApp Enquiry`. */
  function Subject(m: Json): (s: string)
    requires m != JNull
    ensures JsTruthy(Get(m, "from")) ==> s == SubjectPrefix + Display(Get(m, "from").value)
    ensures !JsTruthy(Get(m, "from")) ==> s == FallbackSubject
  {
    var from := Get(m, "from");
    if JsTruthy(from) then SubjectPrefix + Display(from.value) else FallbackSubject
  }

  /** The enquiry message: the text body when there is one, else a line
      stamped with the current time. */
  function MessageContent(m: Json, now: Instant): (s: string)
    requires m != JNull && ValidDay(now.day)
    ensures JsTruthy(TextBody(m)) ==> s == Display(TextBody(m).value)
    ensures !JsTruthy(TextBody(m)) ==> s == FallbackPrefix + IsoString(now)
    ensures TextBody(m).Some? && TextBody(m).value.JStr? && TextBody(m).value.s != "" ==> s == TextBody(m).value.s
  {
    var body := TextBody(m);
    if JsTruthy(body) then Display(body.value) else FallbackPrefix + IsoString(now)
  }

  /** The fallback message carries the moment it was received: the text after
      its fixed prefix reads back as the day of `now`. */
  lemma FallbackStampsDay(m: Json, now: Instant)
    requires m != JNull && ValidDay(now.day) && !JsTruthy(TextBody(m))
    ensures var s := MessageContent(m, now);
      && |s| > |FallbackPrefix| && s[..|FallbackPrefix|] == FallbackPrefix
      && ParseTimestamp(s[|FallbackPrefix|..]) == Some(now.day)
  {
    var s := MessageContent(m, now);
    assert s[|FallbackPrefix|..] == IsoString(now);
    ParseIsoString(now);
  }

  /** For a text message, the message is its text body. */
  lemma TextMessageBody(from: string, text: string, now: Instant)
    requires ValidDay(now.day) && text != ""
    ensures var m := JObj(map["from" := JStr(from), "type" := JStr("text"),
                              "text" := JObj(map["body" := JStr(text)])]);
      MessageContent(m, now) == text
  {
  }

  /** The enquiry a message becomes: open, medium priority, no lead. */
  function MessageEnquiry(m: Json, now: Instant): (e: Enquiry)
    requires m != JNull && ValidDay(now.day)
    ensures e.subject == Subject(m) && e.message == Some(MessageContent(m, now))
    ensures e.status == EnquiryOpen && e.priority == PriorityMedium
    ensures e.leadId.None? && e.lead.None? && e.assignedTo.None?
  {
    Enquiry(None, None, Subject(m), Some(MessageContent(m, now)), EnquiryOpen, PriorityMedium,
            None, None, None, None, None)
  }

  datatype PostResponse = BadRequest | Ignored | Received {
    /** 400 only for a body that cannot be read; an ignored payload is a 200
        like a received one. */
    function Status(): (s: nat)
      ensures s == 400 <==> BadRequest?
      ensures s == 200 || s == 400
    {
      if BadRequest? then 400 else 200
    }
  }

  /** `POST`: `body` is `None` when the request is not JSON. A `null` body
      fails on its first property read (400); a payload without a message is
      ignored (200); otherwise the enquiry is inserted when the database
      accepts it, and the answer is `received` (200) either way. */
  function Post(enquiries: Table<Enquiry>, body: Option<Json>, now: Instant, insertOk: bool): (r: (PostResponse, Table<Enquiry>))
    requires ValidDay(now.day)
    ensures r.0 == BadRequest <==> body.None? || body == Some(JNull)
    ensures r.0 == Ignored <==> body.Some? && body.value != JNull && !JsTruthy(FirstMessage(body.value))
    ensures r.0 != Received || !insertOk ==> r.1 == enquiries
    ensures r.0 == Received && insertOk ==>
      var m := FirstMessage(body.value).value;
      m != JNull && r.1.rows == enquiries.rows[enquiries.next := MessageEnquiry(m, now)]
    ensures enquiries.Valid() ==> r.1.Valid() && Extends(enquiries, r.1)
  {
    if body.None? || body.value == JNull then (BadRequest, enquiries)
    else
      var m := FirstMessage(body.value);
      if !JsTruthy(m) then (Ignored, enquiries)
      else if insertOk then (Received, enquiries.Insert(MessageEnquiry(m.value, now)).0)
      else (Received, enquiries)
  }
}

=== FILE: wrappers.dfy ===
/** Optional values: the model's rendering of a JavaScript value that may be
    `undefined` or `null`. */
module Wrappers {

  datatype Option<+T> = None | Some(value: T) {

    /** The value if present, otherwise `default`. */
    function GetOr(default: T): T {
      match this
      case Some(v) => v
      case None => default
    }
  }
}
